=== FILE: README.md ===
# OSDP exerciser core, modelled in Dafny

This project models the protocol core of the osdp-exerciser, an
implementation of OSDP (Open Supervised Device Protocol, IEC 60839-11-5).
An access control unit (ACU) and its peripheral devices (PDs) exchange
frames on a shared serial line. The model covers three parts:

- **The frame parser** `osdp_parse_message`. It decides whether one
  received frame is accepted and updates the per-link record: the expected
  sequence number, error counters, the packet counter and the
  "last frame was processed" flag. The C function keeps assigning a single
  status variable, and a later check overwrites an earlier one. The model
  keeps that order as a chain of stage functions (`parse.dfy`):
  framing gates, header decoding with the per-command length table, CRC or
  checksum, sequence check, address filter, MAC check with decryption, and
  final bookkeeping.
- **The file-transfer handlers** `action_osdp_FILETRANSFER` (PD side) and
  `action_osdp_FTSTAT` (ACU side) (`transfer.dfy`). Each call of the PD
  handler records the osdp_FTSTAT replies it tries to send. The result of
  the k-th send is an input.
- **Helpers of oo-prims.c** (`bytes.dfy`, `prims.dfy`): the little-endian
  16- and 32-bit codecs, the response address, the awaiting-response test,
  the hex-string decoder, timer restart and LED validation.

The parser calls five helpers: the CRC and checksum routines, the command
lookup `osdp_check_command_reply`, the MAC check `oo_hash_check` and
`osdp_decrypt_payload`. Their source is not part of this model, so they are
function-valued fields of an `Env` record. Every parser property holds
whatever values these helpers return; what else they might change is not
modelled (see "Left out"). The file-transfer environment works the
same way: whether fopen succeeds, how many bytes fwrite reports, the status
of each send, and the size `oo_filetransfer_SDU_offer` proposes are all
inputs.

Bytes are the subset type `byte` (0..255) over `int`. C's conversion to
`unsigned short` is written out as reduction modulo 2^16 (`Bytes.ToU16`).
A frame is a `seq<byte>` whose length is `m->lth`. The C code may read past
the end of a short frame; the model reads 0 there (`Bytes.ByteAt`). The
header that defines the constants is not part of this model. The values
used are those the OSDP standard assigns: SOM 0x53, configuration address
0x7F, the command and reply codes, SCS_15..SCS_18 = 0x15..0x18, and FTSTAT
details OK 0, PROCESSED 1, ABORT -1 (0xFFFF on the wire). The others are
OSDP_OFFICIAL_MSG_MAX = 1500 and a 6-byte `OSDP_HDR`.

Behaviour the model keeps as the code has it:

- A checksum mismatch is counted, then the status is set to OK on purpose
  ("tolerate checksum error"). This also clears an error left by the
  command lookup.
- osdp_POLL, osdp_ACK and osdp_FILETRANSFER are not cases of the length
  switch. They take the default branch.
- The monitor, address-filter and unexpected-secure-channel tests use the
  context's role. The sequence test and the MAC check use the role passed
  in.
- The address filter compares the whole address byte, direction bit
  included, with 0x7F.
- A FINISHING verdict in `action_osdp_FTSTAT` becomes OK, so the handler
  goes on to the OK branch and may still send the next fragment or wrap up.
- The command switch computes a local data length, but the line that
  would copy it into the message is commented out. The message keeps the
  data length the command lookup left, and the switch's length only places
  the check field.
- The sink is opened only for a fragment at offset 0, but every fragment
  that is still OK goes on to `fwrite` on the transfer's file handle. The
  handle may not be open:
  - after a failed open whose abort went out;
  - for a fragment at a non-zero offset that comes before any fragment at
    offset 0;
  - for a fragment that comes after a wrap-up (abort, completion, or an
    FTSTAT WRAPUP).

  C leaves that write undefined. The model does not say what happens
  there. It takes the count fwrite reports as an input like any other,
  stores nothing, and marks the step with `Step.wroteClosedSink`.

## Model

| member | source | states |
|---|---|---|
| Bytes.DoubleByteToArray | src-lib/oo-prims.c:288-298 | two bytes, low byte first; a[0] + 256·a[1] equals the value |
| Bytes.ArrayToDoubleByte | src-lib/oo-prims.c:93-103 | the value's low byte is a[0] and its high byte a[1] |
| Bytes.QuadByteToArray | src-lib/oo-prims.c:301-313 | four bytes, least significant first, recombine to the value |
| Bytes.ArrayToQuadByte | src-lib/oo-prims.c:106-118 | each byte of the result, from lowest to highest, is a[0]..a[3] |
| Bytes.DoubleByteRoundTrip | src-lib/oo-prims.c:288-298 | decoding an encoded 16-bit value gives it back |
| Bytes.DoubleByteArrayRoundTrip | src-lib/oo-prims.c:93-103 | encoding a decoded byte pair gives the pair back |
| Bytes.QuadByteRoundTrip | src-lib/oo-prims.c:301-313 | decoding an encoded 32-bit value gives it back |
| Bytes.QuadByteArrayRoundTrip | src-lib/oo-prims.c:106-118 | encoding four decoded bytes gives them back |
| Prims.ResponseAddress | src-lib/oo-prims.c:73-91 | the reply goes to the address the command came from, on both branches |
| Prims.AwaitingResponse | src-lib/oo-prims.c:121-145 | result is 0 or 1, and 0 exactly when the last frame was processed or the response timer is stopped |
| Prims.TimerStart | src-lib/oo-prims.c:379-407 | out-of-range index: BAD_TIMER and no change; otherwise only presets above zero are reloaded and only they mark the timer restarted, other timers unchanged |
| Prims.TimerStartIdempotent | src-lib/oo-prims.c:379-407 | restarting the same timer twice equals restarting it once |
| Prims.ValidateLedValuesIdempotent | src-lib/oo-prims.c:410-428 | validating again against the details the first validation left changes nothing |
| Prims.ValidateLedValues | src-lib/oo-prims.c:410-428 | always OK; a reader other than 0 records NAK code 0x09 with length 1, reader 0 leaves the details untouched |
| Prims.StringToBuffer | src-lib/oo-prims.c:345-374 | status 0; one byte per two characters (the last one alone for odd length), each the hex value of its pair; the length truncated to 16 bits |
| Prims.HexRoundTrip | src-lib/oo-prims.c:362-370 | every two-character group of a rendered byte string reads back as the byte it came from |
| Prims.HexDecodeOfEncode | src-lib/oo-prims.c:345-374 | decoding the hex rendering of any byte string returns that string and its length |
| Parse.FrameGate | src-lib/oo-parse.c:80-144 | TOO_LONG exactly when the buffer or the declared length exceeds 1500; TOO_SHORT exactly when the buffer is shorter than header plus check or than the declared length; OK exactly for an accepted frame starting with SOM |
| Parse.DecodeStage | src-lib/oo-parse.c:145-648 | the view's data length is the lookup's; the check field sits after the switch's length; a resolved lookup gives OK, otherwise the lookup's status stands; an unresolved osdp_NAK adds exactly one sent NAK, and nothing else changes the link |
| Parse.IntegrityStage | src-lib/oo-parse.c:652-746 | CRC frames: a MAC moves the check field by 4, a mismatch gives BAD_CRC and one more CRC error, an unexpected secure block resets the sequence; checksum frames: a mismatch is counted and yields OK |
| Parse.SequenceStage | src-lib/oo-parse.c:748-808 | a rejected sequence gives BAD_SEQUENCE, one more bad-sequence count and expectation 0; otherwise nothing changes |
| Parse.AddressStage | src-lib/oo-parse.c:811-822 | NOT_MY_ADDR exactly for a PD seeing another PD's address that is not the configuration address |
| Parse.SecureStage | src-lib/oo-parse.c:824-848 | MAC check and decryption run only on OK frames with a security block outside monitor role; plaintext appears only when both succeed |
| Parse.FinalStage | src-lib/oo-parse.c:903-953 | OK frames are counted; a monitor reports MONITOR_ONLY; BAD_SEQUENCE marks the last frame processed; nothing else in the link changes |
| Parse.ParseMessage | src-lib/oo-parse.c:52-968 | a frame failing the gates is reported with the gate's status and leaves the link untouched; otherwise a decoded view is returned |
| ParseProps.CheckSizeFollowsControlBit | src-lib/oo-parse.c:84-97 | control bit 2 clear selects a 1-byte checksum, set a 2-byte CRC |
| ParseProps.FramingGates | src-lib/oo-parse.c:80-144 | the length and SOM gates in order, each with its status; a rejected frame leaves the link untouched |
| ParseProps.DeclaredLength1501IsTooLong | src-lib/oo-parse.c:104-111 | a frame declaring 1501 bytes is rejected as too long before anything else |
| ParseProps.HeaderDecoding | src-lib/oo-parse.c:145-221 | address, direction, sequence, command offset, security block and initial data length as functions of the header bytes |
| ParseProps.PayloadLengthTable | src-lib/oo-parse.c:303-648 | the message's data length is always the lookup's; the switch's length (placing the check field) and the payload pointer for every row of the command switch, and the lookup's own length when it resolved the command |
| ParseProps.TableMembership | src-lib/oo-parse.c:334-639 | POLL, ACK and FILETRANSFER fall to the default branch; the listed codes use declared length - 8 |
| ParseProps.CrcMismatchRejects | src-lib/oo-parse.c:652-706 | a CRC mismatch is never accepted, is counted once, exposes no plaintext and is not counted as a packet |
| ParseProps.ChecksumMismatchTolerated | src-lib/oo-parse.c:708-746 | for a frame without a security block, a checksum mismatch is counted, and the frame is OK exactly when the sequence, address and monitor tests let it through |
| ParseProps.UnexpectedScsResetsSession | src-lib/oo-parse.c:661-680 | an ACU outside secure channel that sees an authenticated block resets the expected sequence to 0 and does not accept the frame |
| ParseProps.SequenceCycle | src-lib/oo-parse.c:748-764 | the follower of a sequence number cycles 1, 2, 3, 1 and is never 0 |
| ParseProps.BadSequenceResets | src-lib/oo-parse.c:770-806 | a rejected sequence is counted once, resets the expectation and marks the frame processed unless the address filter overrides the status; otherwise the expectation is kept |
| ParseProps.SequenceZeroNeverRejected | src-lib/oo-parse.c:784-806 | wire sequence 0 is never counted as a bad sequence |
| ParseProps.ForeignFrameRejected | src-lib/oo-parse.c:811-822 | a PD rejects another PD's frame, does not count it and never decrypts it |
| ParseProps.SecureChannelGating | src-lib/oo-parse.c:824-848 | plaintext only after a successful MAC check and decryption, never in monitor role; a failed MAC is never accepted |
| ParseProps.AcceptedFramesCounted | src-lib/oo-parse.c:903-942 | the packet counter rises by at most one, only for frames ending OK or MONITOR_ONLY, and for every frame ending OK; a monitor never reports OK, and counts exactly the frames still OK when the bookkeeping starts, reporting them MONITOR_ONLY |
| ParseProps.ViewIndependentOfLink | src-lib/oo-parse.c:145-221 | the decoded view, apart from the decrypted plaintext, does not depend on the link record |
| ParseProps.PollExample | src-lib/oo-parse.c:80-648 | a PD at address 0 accepts a 7-byte osdp_POLL with a correct checksum and counts one more packet; payload right after the command, check byte right after that, data length the lookup's |
| ParseProps.ShortDeclaredLengthPassesGates | src-lib/oo-parse.c:80-144 | an 8-byte CRC frame declaring length 0 passes every gate, and its check field can lie before the frame |
| ParseProps.PlainFrameAccepted | src-lib/oo-parse.c:303-942 | a frame without a security block ends OK exactly when the lookup succeeds and the CRC matches (or, with a checksum, the lookup succeeds or the checksum mismatch is tolerated) and the sequence, address and monitor tests pass; an OK frame is counted |
| ParseProps.SecureFrameAccepted | src-lib/oo-parse.c:303-942 | a frame with a security block ends OK exactly when the integrity, sequence, address and monitor tests pass and, outside monitor role, the MAC check and the decryption succeed; the plaintext is then exposed |
| ParseProps.SequenceStaysInRange | src-lib/oo-parse.c:661-806 | the expected sequence number stays in 0..3, because the parser only resets it to 0 |
| ParseProps.ChecksumFrameRoundTrip | src-lib/oo-parse.c:145-942 | a checksum frame laid out by a sender parses back to its address, direction, sequence and command with no checksum error and the same acceptance rule, but, because the length before the table subtracts two check bytes for a one-byte checksum too, its data length is one short, the payload loses its last byte and the check offset points at that byte |
| ParseProps.EncodeParseRoundTrip | src-lib/oo-parse.c:145-942 | a CRC frame laid out by a sender parses back to its address, direction, sequence, command, data length and payload with no CRC error, whether the lookup resolves the command or a declared-length row sizes it; it is accepted exactly when the lookup succeeds and the sequence, address and monitor tests pass |
| FileTransfer.OfferedSize | src-lib/oo-actions.c:214-232 | a configured pd_filetransfer_payload overrides the SDU offer |
| FileTransfer.OpenStage | src-lib/oo-actions.c:156-174 | a fragment at offset 0 opens and truncates the sink; a failed open sends one abort, its send status replaces BAD_TRANSFER_SAVE, and the transfer is wrapped up |
| FileTransfer.WriteStage | src-lib/oo-actions.c:175-254 | a short write sends an abort and goes idle; a full write advances the offset by the fragment size, then PROCESSED with wrap-up at the total, OK with the offered size otherwise |
| FileTransfer.RecoverStage | src-lib/oo-actions.c:255-266 | a remaining failure sends an abort that keeps the response buffer, wraps up only if that send succeeded, and reports OK |
| FileTransfer.ReceiveFragment | src-lib/oo-actions.c:124-273 | the handler always reports OK and sends one to three FTSTATs |
| FileTransfer.OnFtStat | src-lib/oo-actions.c:276-337 | WRAPUP ends the transfer; OK or FINISHING sends the next fragment exactly while data remains and wraps up once the transfer is empty or complete; other verdicts change nothing |
| FileTransferProps.RejectedFragmentAborts | src-lib/oo-actions.c:144-156 | a fragment the validator rejects gets one abort and no write, and is wrapped up if the abort went out |
| FileTransferProps.ShortWriteAborts | src-lib/oo-actions.c:175-192 | a short write gives one abort, or two if the first send fails, and leaves the transfer idle with the partial write kept |
| FileTransferProps.FullWriteAdvances | src-lib/oo-actions.c:194-252 | a full non-final write appends the data, advances the offset and sends OK with the offer; if that send fails, an abort carrying the offer follows |
| FileTransferProps.LastFragmentCompletes | src-lib/oo-actions.c:196-209 | the fragment reaching the total length gets PROCESSED and ends the transfer with all data stored |
| FileTransferProps.OkRepliesCarryOffer | src-lib/oo-actions.c:214-251 | every OK reply carries the configured payload size if set, else the SDU offer, truncated to 16 bits |
| FileTransferProps.ClosedSinkStillWrites | src-lib/oo-actions.c:154-178 | a fragment at a non-zero offset while no sink is open still goes to the write; a full write short of the total advances the offset and is answered by OK, with nothing stored |
| FileTransferProps.FailedOpenStillWrites | src-lib/oo-actions.c:159-180 | after a failed open whose abort went out, the code goes on to the write through the closed sink; if that write reports a full count, nothing is stored and an OK follows |
| FileTransferProps.DeliverRest | src-lib/oo-actions.c:175-254 | when every open, write and send succeeds, from any offset with the sink open (or from offset 0), the remaining fragments are appended in order, answered by OKs then one PROCESSED, and the context ends idle |
| FileTransferProps.WholeFileDelivered | src-lib/oo-actions.c:124-273 | a file sent in non-empty fragments from offset 0 is stored whole; all replies but the last are OK with the offer, the last is PROCESSED, and the context ends idle |
| FileTransferProps.FinishingActsAsOk | src-lib/oo-actions.c:298-332 | a FINISHING verdict is handled exactly like OK |
| FileTransferProps.AcuAdvancesOrEnds | src-lib/oo-actions.c:313-331 | under OK, a transfer at or past its total sends nothing, and ends when exactly at it; an unfinished one sends its next fragment and ends exactly when that send reaches the total |

## Left out

- Logging, trace dumps, display formatting, `oosdp_make_message`, the verbosity switches and the conformance bookkeeping (`osdp_test_set_status`, the ACU sequence-0 test): none of them affects status, message view or link record.
- The bodies of fCrcBlk, checksum, osdp_check_command_reply, oo_hash_check and osdp_decrypt_payload. They are not part of this model and are inputs (`Parse.Env`).
- Side effects of those helpers. osdp_check_command_reply receives the whole message (oo-parse.c:305), oo_hash_check receives the context, and osdp_decrypt_payload the context and the message (oo-parse.c:833-836). The model assumes the lookup changes only `m->data_length`, the decryption only the plaintext, and the MAC check nothing. Any change they make to the context is not modelled.
- osdp_filetransfer_validate, osdp_ftstat_validate, osdp_send_filetransfer, oo_send_ftstat and oo_filetransfer_SDU_offer. Their source is not part of this model. Their verdicts, send statuses and offers are inputs. Any effect they have on the transfer context is not modelled, except the offset reached after osdp_send_filetransfer and the total length the validator records.
- osdp_wrapup_filetransfer is not part of this model. `FileTransfer.Wrapup` assumes it closes the sink and resets offset and total length.
- oo_write_status, called on success at the end of both transfer handlers. It writes a status file, and the handlers' reported status is the one before that call.
- The other functions of oo-prims.c: dump_buffer_stderr (trace output), osdp_command_match and osdp_command_reply_to_string (label tables), and osdp_send_ftstat (a serial-line send).
- monitor_osdp_message, which the parser calls in monitor role, and the `m->remainder` bookkeeping for bytes beyond the declared length.
- Counter overflow: the C counters are `int` and the model counts with unbounded naturals.
- Reads outside the frame. C reads whatever memory lies there, and the model reads 0. This covers reads past the end of a frame shorter than its fields. It also covers reads before the start of the frame: the gates never require the declared length to cover header and check bytes, so a short declared length can put the check field at a negative offset (`ParseProps.ShortDeclaredLengthPassesGates`). The C code then reads `m->ptr[-2]` and `m->ptr[-1]` and hands fCrcBlk a length of `msg_lth - 2`, which is negative. The model computes the CRC of no bytes there.
- The timer table size is not visible. OSDP_TIMER_MAX is a parameter (`timerMax`). Because the range test lets index OSDP_TIMER_MAX through, the table is assumed to hold OSDP_TIMER_MAX + 1 entries (`requires timerMax < |timers|`).
- Prims.StringToBuffer: requires a string of hex digits only. `sscanf("%x")` on other characters is not modelled.
- Prims.StringToBuffer: the caller's buffer size is not modelled. The output is a fresh sequence of the decoded length.
- ParseProps.EncodeParseRoundTrip: covers CRC frames only. For a checksum frame the parser, as written, computes the data length as the declared length less 6 and less 2 (oo-parse.c:165 and the table rows such as 353), although only the MFGREP row subtracts the actual check size (oo-parse.c:517-518). `ParseProps.ChecksumFrameRoundTrip` states what the code then does: the payload is one byte short. The model follows the code and does not guess the corrected length, which osdp_check_command_reply may also supply.
- FileTransfer.ReceiveFragment: requires the fragment data to hold exactly FtFragmentSize bytes and fwrite to report at most that many. The handler never checks FtFragmentSize, a field on the wire, against the payload it received (oo-actions.c:154). The model assumes the two agree, and does not model the read past the fragment that a larger size causes.
- FileTransferProps.WholeFileDelivered: covers only the environment where every open, write and send succeeds, and starts from an offset of 0. The single-fragment lemmas cover the failure paths.
- FileTransferProps.FailedOpenStillWrites: C leaves undefined what `fwrite` does with a file handle that is not open, and the count it returns. This covers the NULL `FILE*` left by a failed open, and any fragment processed while no sink is open. The lemma assumes the call returns the full count, and says only what the handler then does with that count.
- FileTransferProps.ClosedSinkStillWrites: the same undefined write, for a fragment at a non-zero offset with no sink open. The lemma assumes it returns the full count.

=== FILE: bytes.dfy ===
/**
 Byte-level primitives of the OSDP exerciser: the little-endian two- and
 four-byte codecs every frame field and file-transfer header goes through,
 and the C conversions (truncation to `unsigned short`, reading a byte of a
 buffer) written out explicitly.

 Bytes and unsigned words are modelled as bounded integers; a C mask of an
 unsigned value (`x & 0xff`, `(x & 0xff00) >> 8`) is written as the
 equivalent `%` and `/` by a power of two.
 */
module Bytes {

  type byte = x: int | 0 <= x < 0x100
  type u16 = x: int | 0 <= x < 0x1_0000
  type u32 = x: int | 0 <= x < 0x1_0000_0000

  /** The byte at index `i`, or 0 when `i` lies outside the buffer.  The C code
      reads through a raw pointer and would see whatever memory follows the
      frame; the model fixes that unknown content to 0. */
  function ByteAt(s: seq<byte>, i: int): (b: byte)
    ensures 0 <= i < |s| ==> b == s[i]
    ensures !(0 <= i < |s|) ==> b == 0
  {
    if 0 <= i < |s| then s[i] else 0
  }

  /** C's conversion of an `int` to `unsigned short`: reduction modulo 2^16. */
  function ToU16(x: int): (r: u16)
    ensures 0 <= x < 0x1_0000 ==> r == x
    ensures (r - x) % 0x1_0000 == 0
  {
    x % 0x1_0000
  }

  /** osdp_doubleByte_to_array: least-significant byte first. */
  function DoubleByteToArray(i: u16): (a: seq<byte>)
    ensures |a| == 2
    ensures a[0] as int + 0x100 * a[1] as int == i
  {
    [i % 0x100, i / 0x100]
  }

  /** osdp_array_to_doubleByte: `a[1]` shifted up by eight bits plus `a[0]`. */
  function ArrayToDoubleByte(a: seq<byte>): (i: u16)
    requires |a| >= 2
    ensures i % 0x100 == a[0] && i / 0x100 == a[1]
  {
    a[1] as int * 0x100 + a[0]
  }

  /** osdp_quadByte_to_array: least-significant byte first. */
  function QuadByteToArray(i: u32): (a: seq<byte>)
    ensures |a| == 4
    ensures a[0] as int + 0x100 * a[1] as int + 0x1_0000 * a[2] as int + 0x100_0000 * a[3] as int == i
  {
    [i % 0x100, (i / 0x100) % 0x100, (i / 0x1_0000) % 0x100, i / 0x100_0000]
  }

  /** osdp_array_to_quadByte: `a[3]`, `a[2]`, `a[1]`, `a[0]` shifted in from the
      top, eight bits at a time. */
  function ArrayToQuadByte(a: seq<byte>): (i: u32)
    requires |a| >= 4
    ensures i % 0x100 == a[0] && (i / 0x100) % 0x100 == a[1]
    ensures (i / 0x1_0000) % 0x100 == a[2] && i / 0x100_0000 == a[3]
  {
    ((a[3] as int * 0x100 + a[2]) * 0x100 + a[1]) * 0x100 + a[0]
  }

  /** Decoding an encoded 16-bit value gives the value back. */
  lemma DoubleByteRoundTrip(i: u16)
    ensures ArrayToDoubleByte(DoubleByteToArray(i)) == i
  {
  }

  /** Encoding a decoded pair of bytes gives the bytes back. */
  lemma DoubleByteArrayRoundTrip(a: seq<byte>)
    requires |a| == 2
    ensures DoubleByteToArray(ArrayToDoubleByte(a)) == a
  {
  }

  /** Decoding an encoded 32-bit value gives the value back. */
  lemma QuadByteRoundTrip(i: u32)
    ensures ArrayToQuadByte(QuadByteToArray(i)) == i
  {
  }

  /** Encoding four decoded bytes gives the bytes back. */
  lemma QuadByteArrayRoundTrip(a: seq<byte>)
    requires |a| == 4
    ensures QuadByteToArray(ArrayToQuadByte(a)) == a
  {
  }
}

=== FILE: osdp.dfy ===
/** A minimal optional value, used where the C code holds a NULL pointer. */
module Wrappers {
  datatype Option<+T> = None | Some(value: T)
}

/**
 Vocabulary shared by the parser and the file-transfer handlers: roles,
 status codes and the protocol constants of OSDP (IEC 60839-11-5).  The
 header that defines them is not part of this model; the numeric values
 are those the OSDP standard assigns.
 */
module Osdp {
  import opened Bytes

  /** The role a link end plays: access control unit, peripheral device,
      or a passive monitor of the line. */
  datatype Role = Acu | Pd | Monitor

  /** Status codes the core returns.  `Other` stands for any code produced
      by a collaborator whose source is not part of this model (a MAC check,
      a decryption, a send on the serial line). */
  datatype Status =
    | Ok
    | MsgTooShort
    | MsgTooLong
    | BadSom
    | BadCrc
    | BadChecksum
    | BadSequence
    | NotMyAddr
    | ScsFromPdUnexpected
    | MonitorOnly
    | CmdRepFound
    | BadTransferSave
    | FileXferFinishing
    | FileXferWrapup
    | BadTimer
    | Other(code: int)

  /** Start-of-message marker, first byte of every frame. */
  const SOM: byte := 0x53
  /** The configuration (broadcast) address. */
  const CONFIGURATION_ADDRESS: byte := 0x7F
  /** OSDP_OFFICIAL_MSG_MAX, the largest frame accepted. */
  const OFFICIAL_MSG_MAX: nat := 1500
  /** sizeof(OSDP_HDR): SOM, address, two length bytes, control, command. */
  const HEADER_SIZE: nat := 6

  // Security block types carrying a 4-byte MAC after the payload.
  const SEC_SCS_15: byte := 0x15
  const SEC_SCS_16: byte := 0x16
  const SEC_SCS_17: byte := 0x17
  const SEC_SCS_18: byte := 0x18

  predicate IsMacBlockType(t: byte) {
    t == SEC_SCS_15 || t == SEC_SCS_16 || t == SEC_SCS_17 || t == SEC_SCS_18
  }

  // Command and reply codes named by the parser's length table.
  const ACK: byte := 0x40
  const NAK: byte := 0x41
  const PDID: byte := 0x45
  const PDCAP: byte := 0x46
  const LSTATR: byte := 0x48
  const ISTATR: byte := 0x49
  const OSTATR: byte := 0x4A
  const RSTATR: byte := 0x4B
  const RAW: byte := 0x50
  const KEYPAD: byte := 0x53
  const COM: byte := 0x54
  const POLL: byte := 0x60
  const ID: byte := 0x61
  const CAP: byte := 0x62
  const LSTAT: byte := 0x64
  const ISTAT: byte := 0x65
  const OSTAT: byte := 0x66
  const RSTAT: byte := 0x67
  const OUT: byte := 0x68
  const LED: byte := 0x69
  const BUZ: byte := 0x6A
  const TEXT: byte := 0x6B
  const COMSET: byte := 0x6E
  const BIOREAD: byte := 0x73
  const BIOMATCH: byte := 0x74
  const BUSY: byte := 0x79
  const FTSTAT: byte := 0x7A
  const ACURXSIZE: byte := 0x7B
  const FILETRANSFER: byte := 0x7C
  const PIVDATAR: byte := 0x80
  const MFGERRR: byte := 0x84
  const MFGREP: byte := 0x90
  const XWR: byte := 0xA1
  const PIVDATA: byte := 0xA3
  const KEEPACTIVE: byte := 0xA7
  const XRD: byte := 0xB1

  // osdp_FTSTAT status details, as the 16-bit two's-complement wire value.
  const FTSTAT_OK: u16 := 0
  const FTSTAT_PROCESSED: u16 := 1
  const FTSTAT_ABORT_TRANSFER: u16 := 0xFFFF

  // NAK error code "unable to process command record".
  const NAK_CMD_UNABLE: byte := 0x09
}

=== FILE: parse.dfy ===
/**
 osdp_parse_message: the decision procedure that accepts or rejects one
 received OSDP frame and updates the per-link record.

 The C function assigns one `status` variable again and again; a later
 check does not stop because an earlier one failed, it overwrites.  The
 model keeps that order as a chain of stages, each a function from the
 status/message/link triple reached so far to the next one:

   FrameGate -> DecodeStage -> IntegrityStage -> SequenceStage
             -> AddressStage -> SecureStage -> FinalStage

 Helpers whose source is not part of this model (the CRC and checksum
 routines, the command table lookup, the MAC check and the decryption) are
 fields of `Env`, so every property below holds whatever they compute.
 */
module Parse {
  import opened Wrappers
  import opened Bytes
  import opened Osdp

  /** The per-link record: expected sequence number, error counters, the
      packet counter, the "last frame was processed" flag and the two
      globals the parser records for the last accepted frame. */
  datatype Link = Link(
    nextSequence: int,
    crcErrs: nat,
    checksumErrs: nat,
    seqBad: nat,
    sentNaks: nat,
    packetsReceived: nat,
    lastWasProcessed: bool,
    lastCommandReceived: byte,
    lastCheckValue: byte)

  /** What the parser reads but never changes: the context's role, the
      configured PD address (p_card.addr) and whether the secure channel is
      operational. */
  datatype Config = Config(role: Role, address: byte, secureChannelOperational: bool)

  /** Result of osdp_check_command_reply: a status and the data length it
      leaves in the message. */
  datatype CommandCheck = CommandCheck(status: Status, dataLength: int)

  /** Result of osdp_decrypt_payload: a status and the plaintext payload. */
  datatype Decryption = Decryption(status: Status, plaintext: seq<byte>)

  /** The collaborators the parser calls.
      - crc: fCrcBlk over the given bytes;
      - checksum: checksum over the given bytes;
      - checkCommand: osdp_check_command_reply(role, command, data length);
      - hashCheck: oo_hash_check(frame, block type, MAC offset, hashable length);
      - decrypt: osdp_decrypt_payload(frame, message). */
  datatype Env = Env(
    crc: seq<byte> -> u16,
    checksum: seq<byte> -> int,
    checkCommand: (Role, byte, int) -> CommandCheck,
    hashCheck: (seq<byte>, byte, int, int) -> Status,
    decrypt: (seq<byte>, Msg) -> Decryption)

  /** The header fields copied into `returned_hdr`; `addr` keeps only the
      low seven address bits. */
  datatype Header = Header(som: byte, addr: byte, lenLsb: byte, lenMsb: byte, ctrl: byte, command: byte)

  /** Length and type, the first two bytes of a security block. */
  datatype SecurityBlock = SecurityBlock(length: byte, blockType: byte)

  /** The decoded view of a frame (OSDP_MSG).  Offsets index the frame.  A
      `None` data offset is the C code's NULL data_payload.  `dataLength` is
      OSDP_MSG.data_length, the value the command lookup left there; the
      length the command switch computes is kept only in `checkOffset`.
      `plaintext` is present once the secure-channel layer has decrypted the
      payload. */
  datatype Msg =
    | Unparsed(checkSize: nat)
    | Parsed(
        checkSize: nat,
        hdr: Header,
        sequence: int,
        direction: int,
        security: Option<SecurityBlock>,
        cmdOffset: int,
        dataOffset: Option<int>,
        dataLength: int,
        checkOffset: int,
        plaintext: Option<seq<byte>>)

  /** Status, message view and link record as they stand after a stage. */
  datatype ParseResult = ParseResult(status: Status, msg: Msg, link: Link)

  // ---------------------------------------------------------------------
  // Frame fields

  function Ctrl(frame: seq<byte>): byte { ByteAt(frame, 4) }

  /** Control bit 0x04 selects a 2-byte CRC; otherwise a 1-byte checksum. */
  function CheckSize(frame: seq<byte>): (n: nat)
    ensures n == 1 || n == 2
  {
    if (Ctrl(frame) / 4) % 2 == 0 then 1 else 2
  }

  /** The length the header declares, len_lsb + 256 * len_msb. */
  function DeclaredLength(frame: seq<byte>): (n: nat)
    ensures n < 0x1_0000
  {
    ByteAt(frame, 2) + 256 * ByteAt(frame, 3)
  }

  /** Control bit 0x08: a security block follows the control byte. */
  predicate HasSecurityBlock(frame: seq<byte>) { (Ctrl(frame) / 8) % 2 == 1 }

  /** Address byte with the direction bit (0x80) removed. */
  function Address(frame: seq<byte>): byte { ByteAt(frame, 1) % 0x80 }

  /** Sequence number, control bits 0-1. */
  function WireSequence(frame: seq<byte>): int { Ctrl(frame) % 4 }

  function SecBlockLength(frame: seq<byte>): byte { ByteAt(frame, 5) }
  function SecBlockType(frame: seq<byte>): byte { ByteAt(frame, 6) }

  /** Offset of the command/reply byte: right after the 5-byte header, or
      after the security block when there is one. */
  function CommandOffset(frame: seq<byte>): int {
    if HasSecurityBlock(frame) then 5 + SecBlockLength(frame) else 5
  }

  /** The data length computed before the command table is consulted: the
      declared length less header, command and two check bytes, less the
      security block and, for the MAC-carrying block types, 4 MAC bytes. */
  function InitialDataLength(frame: seq<byte>): int {
    var lth := DeclaredLength(frame);
    if !HasSecurityBlock(frame) then lth - 6 - 2
    else
      var macLess := if IsMacBlockType(SecBlockType(frame)) then lth - 4 else lth;
      macLess - 6 - SecBlockLength(frame) - 2
  }

  /** The sequence number that follows `s`: 1, 2, 3, 1, ... (0 is skipped). */
  function NextSequence(s: int): int {
    var n := (s + 1) % 4;
    if n == 0 then 1 else n
  }

  // ---------------------------------------------------------------------
  // Stage 1: length gates and start-of-message

  /** Length gates (buffer too long, shorter than header and check bytes,
      declared length too long, buffer shorter than declared) followed by the
      SOM test; the first that fails decides. */
  function FrameGate(frame: seq<byte>): (st: Status)
    ensures st == Ok || st == MsgTooShort || st == MsgTooLong || st == BadSom
    ensures st == MsgTooLong <==>
      |frame| > OFFICIAL_MSG_MAX
      || (|frame| >= CheckSize(frame) + HEADER_SIZE && DeclaredLength(frame) > OFFICIAL_MSG_MAX)
    ensures st == MsgTooShort <==>
      |frame| <= OFFICIAL_MSG_MAX
      && (|frame| < CheckSize(frame) + HEADER_SIZE
          || (DeclaredLength(frame) <= OFFICIAL_MSG_MAX && |frame| < DeclaredLength(frame)))
    ensures st == Ok ==> |frame| >= CheckSize(frame) + HEADER_SIZE && frame[0] == SOM
    ensures st == Ok <==> FrameAccepted(frame)
  {
    var cs := CheckSize(frame);
    var st0 := if |frame| > OFFICIAL_MSG_MAX then MsgTooLong else MsgTooShort;
    var st1 :=
      if (st0 == Ok || st0 == MsgTooShort) && |frame| >= cs + HEADER_SIZE then
        var st2 := if DeclaredLength(frame) > OFFICIAL_MSG_MAX then MsgTooLong else Ok;
        if st2 == Ok && |frame| < DeclaredLength(frame) then MsgTooShort else st2
      else st0;
    if st1 == Ok && ByteAt(frame, 0) != SOM then BadSom else st1
  }

  /** A frame that passes every gate, stated independently of their order. */
  predicate FrameAccepted(frame: seq<byte>) {
    && CheckSize(frame) + HEADER_SIZE <= |frame| <= OFFICIAL_MSG_MAX
    && DeclaredLength(frame) <= |frame|
    && ByteAt(frame, 0) == SOM
  }

  // ---------------------------------------------------------------------
  // Stage 2: header decoding and the per-command length table

  /** How the switch in osdp_parse_message derives the data length when the
      command lookup did not resolve the command. */
  datatype LengthRule =
    | DeclaredRule   // declared length - 8
    | ComsetRule     // always 5
    | NoPayloadRule  // NULL payload, length 0
    | MfgrepRule     // declared length - 6 - check size
    | Unlisted       // default branch

  function RuleOf(cmd: byte): LengthRule {
    if cmd == COMSET then ComsetRule
    else if cmd == BUSY || cmd == ISTAT || cmd == LSTAT || cmd == OSTAT || cmd == RSTAT then NoPayloadRule
    else if cmd == MFGREP then MfgrepRule
    else if cmd in {ACURXSIZE, BIOMATCH, BIOREAD, FTSTAT, NAK, BUZ, CAP, COM, ID, ISTATR,
                    KEEPACTIVE, KEYPAD, LED, LSTATR, MFGERRR, OSTATR, OUT, PDCAP, PDID,
                    PIVDATA, PIVDATAR, RAW, RSTATR, TEXT, XRD, XWR}
    then DeclaredRule
    else Unlisted
  }

  /** Data offset and length the switch leaves for command `cmd`, starting
      from the lookup's `prior` values.  An unlisted command is rewritten only
      when this end is a PD and the frame travels towards a PD (direction bit
      clear). */
  function TableLength(cmd: byte, frame: seq<byte>, ctxRole: Role, prior: (Option<int>, int))
    : (r: (Option<int>, int))
  {
    var payload := Some(CommandOffset(frame) + 1);
    match RuleOf(cmd)
    case DeclaredRule => (payload, DeclaredLength(frame) - 6 - 2)
    case ComsetRule => (payload, 5)
    case NoPayloadRule => (None, 0)
    case MfgrepRule => (payload, DeclaredLength(frame) - 6 - CheckSize(frame))
    case Unlisted =>
      if ctxRole == Pd && ByteAt(frame, 1) < 0x80 then (payload, 0) else prior
  }

  /** The command lookup's verdict for this frame. */
  function LookUp(env: Env, role: Role, frame: seq<byte>): CommandCheck {
    env.checkCommand(role, ByteAt(frame, CommandOffset(frame)), InitialDataLength(frame))
  }

  /** The data payload pointer and the local data length once the command
      switch has run: the lookup's length when it resolved the command, the
      table's otherwise. */
  function PayloadLayout(env: Env, cfg: Config, role: Role, frame: seq<byte>): (Option<int>, int) {
    var cmdOff := CommandOffset(frame);
    var chk := LookUp(env, role, frame);
    if chk.status == CmdRepFound then (Some(cmdOff + 1), chk.dataLength)
    else TableLength(ByteAt(frame, cmdOff), frame, cfg.role, (Some(cmdOff + 1), chk.dataLength))
  }

  /** Extract header, sequence, direction and security block, locate the
      command and the payload, and apply the command lookup and length table.
      The copy of the switch's length back into the message is disabled in
      the C code, so the view keeps the lookup's data length and the switch's
      length only places the check field.  A resolved lookup turns into OK;
      otherwise its status stands and an osdp_NAK bumps the sent-NAK counter. */
  function DecodeStage(env: Env, cfg: Config, role: Role, frame: seq<byte>, link: Link): (r: ParseResult)
    requires FrameGate(frame) == Ok
    ensures r.msg.Parsed? && r.msg.checkSize == CheckSize(frame)
    ensures r.msg.dataLength == LookUp(env, role, frame).dataLength
    ensures r.msg.dataOffset == PayloadLayout(env, cfg, role, frame).0
    ensures r.msg.checkOffset == r.msg.cmdOffset + 1 + PayloadLayout(env, cfg, role, frame).1
    ensures r.msg.plaintext == None
    ensures r.link == link || (r.link == link.(sentNaks := link.sentNaks + 1)
                              && LookUp(env, role, frame).status != CmdRepFound
                              && r.msg.hdr.command == NAK)
    ensures LookUp(env, role, frame).status != CmdRepFound && r.msg.hdr.command == NAK ==>
      r.link == link.(sentNaks := link.sentNaks + 1)
    ensures r.status == (if LookUp(env, role, frame).status == CmdRepFound then Ok
                         else LookUp(env, role, frame).status)
  {
    var cmdOff := CommandOffset(frame);
    var cmd := ByteAt(frame, cmdOff);
    var hdr := Header(frame[0], Address(frame), frame[2], frame[3], frame[4], cmd);
    var security :=
      if HasSecurityBlock(frame) then Some(SecurityBlock(SecBlockLength(frame), SecBlockType(frame)))
      else None;
    var chk := LookUp(env, role, frame);
    var payload := PayloadLayout(env, cfg, role, frame);
    var link' :=
      if chk.status != CmdRepFound && cmd == NAK then link.(sentNaks := link.sentNaks + 1) else link;
    var st := if chk.status == CmdRepFound then Ok else chk.status;
    var msg := Parsed(CheckSize(frame), hdr, WireSequence(frame), (frame[1] / 0x80) * 0x80,
                      security, cmdOff, payload.0, chk.dataLength, cmdOff + 1 + payload.1, None);
    ParseResult(st, msg, link')
  }

  // ---------------------------------------------------------------------
  // Stage 3: CRC or checksum

  /** Whether an authenticated (MAC-carrying) security block is present. */
  predicate MacBlock(frame: seq<byte>) {
    HasSecurityBlock(frame) && IsMacBlockType(SecBlockType(frame))
  }

  /** An ACU that receives an authenticated frame while its secure channel is
      not operational drops the session. */
  predicate UnexpectedScs(cfg: Config, frame: seq<byte>) {
    CheckSize(frame) == 2 && MacBlock(frame) && !cfg.secureChannelOperational && cfg.role == Acu
  }

  /** The CRC computed over the first declared-length-minus-2 bytes (no
      bytes when that is not positive). */
  function ComputedCrc(env: Env, frame: seq<byte>): u16 {
    var n := DeclaredLength(frame) - 2;
    env.crc(if 0 < n <= |frame| then frame[..n] else [])
  }

  /** The CRC on the wire: low byte at `off`, high byte after it. */
  function WireCrc(frame: seq<byte>, off: int): u16 {
    ByteAt(frame, off + 1) * 256 + ByteAt(frame, off)
  }

  predicate CrcMismatch(env: Env, frame: seq<byte>, checkOffset: int) {
    ComputedCrc(env, frame) != WireCrc(frame, checkOffset)
  }

  predicate ChecksumMismatch(env: Env, frame: seq<byte>)
    requires |frame| >= 1
  {
    env.checksum(frame[..|frame| - 1]) != frame[|frame| - 1]
  }

  /** CRC frames: the unexpected-secure-channel reset, the 4-byte move of the
      check field past a MAC, and a hard BAD_CRC on mismatch.  Checksum
      frames: a mismatch is counted and the status is set to OK. */
  function IntegrityStage(env: Env, cfg: Config, frame: seq<byte>, d: ParseResult): (r: ParseResult)
    requires d.msg.Parsed? && |frame| >= 1
    ensures r.msg.Parsed? && r.msg == d.msg.(checkOffset := r.msg.checkOffset)
    ensures r.link.seqBad == d.link.seqBad && r.link.packetsReceived == d.link.packetsReceived
    ensures r.link.sentNaks == d.link.sentNaks && r.link.lastWasProcessed == d.link.lastWasProcessed
    ensures d.msg.checkSize == 2 ==>
      && r.msg.checkOffset == d.msg.checkOffset + (if MacBlock(frame) && !UnexpectedScs(cfg, frame) then 4 else 0)
      && r.link.checksumErrs == d.link.checksumErrs
      && r.link.nextSequence == (if UnexpectedScs(cfg, frame) then 0 else d.link.nextSequence)
      && (CrcMismatch(env, frame, r.msg.checkOffset) ==> r.status == BadCrc && r.link.crcErrs == d.link.crcErrs + 1)
      && (!CrcMismatch(env, frame, r.msg.checkOffset) ==>
            r.link.crcErrs == d.link.crcErrs
            && r.status == (if UnexpectedScs(cfg, frame) then ScsFromPdUnexpected else d.status))
    ensures d.msg.checkSize != 2 ==>
      && r.msg == d.msg && r.link.crcErrs == d.link.crcErrs && r.link.nextSequence == d.link.nextSequence
      && (ChecksumMismatch(env, frame) ==> r.status == Ok && r.link.checksumErrs == d.link.checksumErrs + 1)
      && (!ChecksumMismatch(env, frame) ==> r.status == d.status && r.link.checksumErrs == d.link.checksumErrs)
    ensures r.status == Ok ==>
      r.link.lastCommandReceived == d.msg.hdr.command
  {
    var m := d.msg;
    if m.checkSize == 2 then
      var unexpected := UnexpectedScs(cfg, frame);
      var st1 := if unexpected then ScsFromPdUnexpected else d.status;
      var link1 := if unexpected then d.link.(nextSequence := 0) else d.link;
      var off := if MacBlock(frame) && !unexpected then m.checkOffset + 4 else m.checkOffset;
      var wire := WireCrc(frame, off);
      var bad := ComputedCrc(env, frame) != wire;
      var st2 := if bad then BadCrc else st1;
      var link2 := if bad then link1.(crcErrs := link1.crcErrs + 1) else link1;
      var link3 := if st2 == Ok
        then link2.(lastCheckValue := wire % 256, lastCommandReceived := m.hdr.command) else link2;
      ParseResult(st2, m.(checkOffset := off), link3)
    else
      var wire := frame[|frame| - 1];
      var bad := ChecksumMismatch(env, frame);
      // ST_BAD_CHECKSUM is assigned and at once replaced by ST_OK
      var st := if bad then Ok else d.status;
      var link1 := if bad then d.link.(checksumErrs := d.link.checksumErrs + 1) else d.link;
      var link2 := if st == Ok
        then link1.(lastCheckValue := wire, lastCommandReceived := m.hdr.command) else link1;
      ParseResult(st, m, link2)
  }

  // ---------------------------------------------------------------------
  // Stage 4: sequence number

  /** The sequence test fails: the frame comes from (or goes to) the
      configured address, and an ACU sees a follower other than the expected
      number, or a PD a wire sequence other than the expected number. */
  predicate SequenceMismatch(cfg: Config, role: Role, frame: seq<byte>, expected: int) {
    && cfg.address == Address(frame)
    && ((role == Acu && NextSequence(WireSequence(frame)) != expected)
        || (role == Pd && WireSequence(frame) != expected))
  }

  /** A mismatch is acted on only by the link's own (non-monitor) role and
      only for a non-zero wire sequence. */
  predicate SequenceRejected(cfg: Config, role: Role, frame: seq<byte>, expected: int) {
    && SequenceMismatch(cfg, role, frame, expected)
    && role != Monitor && role == cfg.role
    && WireSequence(frame) != 0
  }

  function SequenceStage(cfg: Config, role: Role, frame: seq<byte>, d: ParseResult): (r: ParseResult)
    ensures r.msg == d.msg
    ensures SequenceRejected(cfg, role, frame, d.link.nextSequence) ==>
      r.status == BadSequence
      && r.link == d.link.(seqBad := d.link.seqBad + 1, nextSequence := 0)
    ensures !SequenceRejected(cfg, role, frame, d.link.nextSequence) ==> r == d
  {
    if SequenceRejected(cfg, role, frame, d.link.nextSequence) then
      ParseResult(BadSequence, d.msg, d.link.(seqBad := d.link.seqBad + 1, nextSequence := 0))
    else d
  }

  // ---------------------------------------------------------------------
  // Stage 5: address filter

  /** A PD ignores frames for another PD: the seven address bits differ from
      its own and the whole address byte is not the configuration address. */
  predicate ForeignAddress(cfg: Config, frame: seq<byte>) {
    cfg.role == Pd && cfg.address != Address(frame) && ByteAt(frame, 1) != CONFIGURATION_ADDRESS
  }

  function AddressStage(cfg: Config, frame: seq<byte>, d: ParseResult): (r: ParseResult)
    ensures r.msg == d.msg && r.link == d.link
    ensures r.status == (if ForeignAddress(cfg, frame) then NotMyAddr else d.status)
  {
    if ForeignAddress(cfg, frame) then d.(status := NotMyAddr) else d
  }

  // ---------------------------------------------------------------------
  // Stage 6: MAC check and decryption

  /** Whether the MAC check and decryption run at all. */
  predicate SecureStepRuns(role: Role, frame: seq<byte>, st: Status) {
    st == Ok && HasSecurityBlock(frame) && role != Monitor
  }

  /** oo_hash_check on the MAC just before the check bytes over the
      declared length less the check bytes; then, on success,
      osdp_decrypt_payload. */
  function SecureStage(env: Env, role: Role, frame: seq<byte>, d: ParseResult): (r: ParseResult)
    requires d.msg.Parsed?
    ensures r.link == d.link
    ensures r.msg.Parsed? && r.msg == d.msg.(plaintext := r.msg.plaintext)
    ensures !SecureStepRuns(role, frame, d.status) ==> r == d
    ensures SecureStepRuns(role, frame, d.status) ==>
      var mac := env.hashCheck(frame, SecBlockType(frame), d.msg.checkOffset - 4,
                               DeclaredLength(frame) - d.msg.checkSize);
      && (mac != Ok ==> r.status == mac && r.msg.plaintext == d.msg.plaintext)
      && (mac == Ok ==>
            var dec := env.decrypt(frame, d.msg);
            && r.status == dec.status
            && r.msg.plaintext == (if dec.status == Ok then Some(dec.plaintext) else d.msg.plaintext))
  {
    if SecureStepRuns(role, frame, d.status) then
      var mac := env.hashCheck(frame, SecBlockType(frame), d.msg.checkOffset - 4,
                               DeclaredLength(frame) - d.msg.checkSize);
      if mac != Ok then d.(status := mac)
      else
        var dec := env.decrypt(frame, d.msg);
        if dec.status == Ok then ParseResult(Ok, d.msg.(plaintext := Some(dec.plaintext)), d.link)
        else d.(status := dec.status)
    else d
  }

  // ---------------------------------------------------------------------
  // Stage 7: bookkeeping

  /** An accepted frame is counted; a monitor reports it as MONITOR_ONLY.  A
      sequence error still marks the last frame as processed. */
  function FinalStage(cfg: Config, d: ParseResult): (r: ParseResult)
    ensures r.msg == d.msg
    ensures r.link.packetsReceived == d.link.packetsReceived + (if d.status == Ok then 1 else 0)
    ensures r.status == (if d.status == Ok && cfg.role == Monitor then MonitorOnly else d.status)
    ensures r.link.lastWasProcessed == (d.link.lastWasProcessed || d.status == BadSequence)
    ensures r.link.(packetsReceived := d.link.packetsReceived, lastWasProcessed := d.link.lastWasProcessed)
            == d.link
  {
    var counted := if d.status == Ok then d.link.(packetsReceived := d.link.packetsReceived + 1) else d.link;
    var st := if d.status == Ok && cfg.role == Monitor then MonitorOnly else d.status;
    var link' := if st == BadSequence then counted.(lastWasProcessed := true) else counted;
    ParseResult(st, d.msg, link')
  }

  // ---------------------------------------------------------------------
  // The whole parser

  /** The stages up to, but not including, the MAC check. */
  function Checked(env: Env, cfg: Config, role: Role, frame: seq<byte>, link: Link): (r: ParseResult)
    requires FrameGate(frame) == Ok
    ensures r.msg.Parsed?
  {
    AddressStage(cfg, frame,
      SequenceStage(cfg, role, frame,
        IntegrityStage(env, cfg, frame,
          DecodeStage(env, cfg, role, frame, link))))
  }

  /** osdp_parse_message: parse `frame` received in `role` on a link whose
      record is `link`. */
  function ParseMessage(env: Env, cfg: Config, role: Role, frame: seq<byte>, link: Link): (r: ParseResult)
    ensures r.msg.checkSize == CheckSize(frame)
    ensures r.msg.Unparsed? <==> FrameGate(frame) != Ok
    ensures r.msg.Unparsed? ==> r.status == FrameGate(frame) && r.link == link
  {
    var gate := FrameGate(frame);
    if gate != Ok then ParseResult(gate, Unparsed(CheckSize(frame)), link)
    else FinalStage(cfg, SecureStage(env, role, frame, Checked(env, cfg, role, frame, link)))
  }
}

=== FILE: parse_props.dfy ===
/**
 Properties of osdp_parse_message, stated over the whole parse: what each
 gate decides, how the header is decoded, the per-command length table, the
 integrity, sequence and address checks, the gating of the secure channel,
 and a frame encoder whose frames the parser decodes back.
 */
module ParseProps {
  import opened Wrappers
  import opened Bytes
  import opened Osdp
  import opened Parse

  /** The bytes of the data payload a message view designates, when it lies
      inside the frame. */
  function Payload(frame: seq<byte>, m: Msg): (p: Option<seq<byte>>)
    ensures p.Some? ==> m.Parsed? && m.dataOffset.Some? && |p.value| == m.dataLength
  {
    if m.Parsed? && m.dataOffset.Some? && 0 <= m.dataOffset.value
       && 0 <= m.dataLength && m.dataOffset.value + m.dataLength <= |frame|
    then Some(frame[m.dataOffset.value .. m.dataOffset.value + m.dataLength])
    else None
  }

  /** The expected sequence number the sequence check compares against: the
      link's, unless the unexpected-secure-channel test has just reset it. */
  function ExpectedSequence(cfg: Config, frame: seq<byte>, link: Link): int {
    if UnexpectedScs(cfg, frame) then 0 else link.nextSequence
  }

  /** The stage reached just before the MAC check. */
  lemma CheckedFacts(env: Env, cfg: Config, role: Role, frame: seq<byte>, link: Link)
    requires FrameGate(frame) == Ok
    ensures var d := DecodeStage(env, cfg, role, frame, link);
            var c := Checked(env, cfg, role, frame, link);
            && c.msg == d.msg.(checkOffset := c.msg.checkOffset)
            && c.link.packetsReceived == link.packetsReceived
            && c.link.lastWasProcessed == link.lastWasProcessed
  {
  }

  // ---------------------------------------------------------------------
  // Check size and length gates

  /** Control bit 2 clear selects the one-byte checksum, set the two-byte
      CRC, whatever else the frame holds. */
  lemma CheckSizeFollowsControlBit(env: Env, cfg: Config, role: Role, frame: seq<byte>, link: Link)
    ensures var r := ParseMessage(env, cfg, role, frame, link);
            && (ByteAt(frame, 4) % 8 < 4 ==> r.msg.checkSize == 1)
            && (ByteAt(frame, 4) % 8 >= 4 ==> r.msg.checkSize == 2)
  {
  }

  /** The four length gates and the SOM test, in order.  None of them touches
      the link record or extracts a header. */
  lemma FramingGates(env: Env, cfg: Config, role: Role, frame: seq<byte>, link: Link)
    ensures var r := ParseMessage(env, cfg, role, frame, link);
            var cs, lth := CheckSize(frame), DeclaredLength(frame);
            && (|frame| > OFFICIAL_MSG_MAX ==> r.status == MsgTooLong)
            && (|frame| <= OFFICIAL_MSG_MAX && |frame| < cs + HEADER_SIZE ==> r.status == MsgTooShort)
            && (|frame| <= OFFICIAL_MSG_MAX && |frame| >= cs + HEADER_SIZE && lth > OFFICIAL_MSG_MAX
                ==> r.status == MsgTooLong)
            && ((|frame| <= OFFICIAL_MSG_MAX && |frame| >= cs + HEADER_SIZE && lth <= OFFICIAL_MSG_MAX
                 && |frame| < lth) ==> r.status == MsgTooShort)
            && ((cs + HEADER_SIZE <= |frame| <= OFFICIAL_MSG_MAX && lth <= |frame| && frame[0] != SOM)
                ==> r.status == BadSom)
            && (!FrameAccepted(frame) ==> r.msg.Unparsed? && r.link == link)
            && (FrameAccepted(frame) ==> r.msg.Parsed?)
  {
  }

  /** A frame declaring 1501 bytes is rejected as too long before anything
      else is looked at. */
  lemma DeclaredLength1501IsTooLong(env: Env, cfg: Config, role: Role, frame: seq<byte>, link: Link)
    requires 8 <= |frame| <= OFFICIAL_MSG_MAX
    requires frame[2] == 0xDD && frame[3] == 0x05
    ensures ParseMessage(env, cfg, role, frame, link) == ParseResult(MsgTooLong, Unparsed(CheckSize(frame)), link)
  {
    assert DeclaredLength(frame) == 1501;
  }

  // ---------------------------------------------------------------------
  // Header decoding

  /** Address, sequence and direction come from the address and control
      bytes; the command sits at offset 5, or after the security block; the
      data starts right after the command; MAC-carrying blocks take 4 bytes
      off the data length handed to the command lookup. */
  lemma HeaderDecoding(env: Env, cfg: Config, role: Role, frame: seq<byte>, link: Link)
    requires FrameAccepted(frame)
    ensures var r := ParseMessage(env, cfg, role, frame, link);
            && r.msg.Parsed?
            && r.msg.hdr.som == SOM
            && r.msg.hdr.addr == frame[1] % 0x80
            && r.msg.direction == (if frame[1] >= 0x80 then 0x80 else 0)
            && r.msg.sequence == frame[4] % 4
            && r.msg.cmdOffset == (if frame[4] % 16 >= 8 then 5 + frame[5] as int else 5)
            && r.msg.hdr.command == ByteAt(frame, r.msg.cmdOffset)
            && r.msg.security == (if frame[4] % 16 >= 8 then Some(SecurityBlock(frame[5], frame[6])) else None)
            && (r.msg.dataOffset.Some? ==> r.msg.dataOffset.value == r.msg.cmdOffset + 1)
            && InitialDataLength(frame) ==
                 DeclaredLength(frame) - 8
                 - (if frame[4] % 16 >= 8 then frame[5] else 0)
                 - (if frame[4] % 16 >= 8 && 0x15 <= frame[6] <= 0x18 then 4 else 0)
  {
    CheckedFacts(env, cfg, role, frame, link);
  }

  // ---------------------------------------------------------------------
  // Per-command payload length

  /** The local data length the command switch computed, recovered from
      where it placed the check field (a CRC behind a MAC sits 4 bytes
      further). */
  function SwitchLength(cfg: Config, frame: seq<byte>, m: Msg): int
    requires m.Parsed?
  {
    var macShift := if m.checkSize == 2 && MacBlock(frame) && !UnexpectedScs(cfg, frame) then 4 else 0;
    m.checkOffset - m.cmdOffset - 1 - macShift
  }

  /** The view's data length is always the one the command lookup left, for
      the copy of the switch's length into the message is disabled.  The
      switch's own length, which places the check field, and the payload
      pointer follow the lookup when it resolved the command and the table
      row of the command otherwise. */
  lemma PayloadLengthTable(env: Env, cfg: Config, role: Role, frame: seq<byte>, link: Link)
    requires FrameAccepted(frame)
    ensures var r := ParseMessage(env, cfg, role, frame, link);
            var chk := LookUp(env, role, frame);
            var cmd := r.msg.hdr.command;
            var after := Some(r.msg.cmdOffset + 1);
            var lth := DeclaredLength(frame);
            && r.msg.Parsed?
            && r.msg.dataLength == chk.dataLength
            && var local := SwitchLength(cfg, frame, r.msg);
            && (chk.status == CmdRepFound ==> local == chk.dataLength && r.msg.dataOffset == after)
            && (chk.status != CmdRepFound ==>
                && (cmd == COMSET ==> local == 5 && r.msg.dataOffset == after)
                && (cmd in {BUSY, ISTAT, LSTAT, OSTAT, RSTAT} ==> local == 0 && r.msg.dataOffset == None)
                && (cmd == MFGREP ==> local == lth - 6 - r.msg.checkSize && r.msg.dataOffset == after)
                && (RuleOf(cmd) == DeclaredRule ==> local == lth - 8 && r.msg.dataOffset == after)
                && (RuleOf(cmd) == Unlisted && cfg.role == Pd && r.msg.direction == 0 ==>
                      local == 0 && r.msg.dataOffset == after)
                && (RuleOf(cmd) == Unlisted && !(cfg.role == Pd && r.msg.direction == 0) ==>
                      local == chk.dataLength && r.msg.dataOffset == after))
  {
    CheckedFacts(env, cfg, role, frame, link);
  }

  /** Membership of the table: poll, ack and file transfer are not listed and
      fall to the default branch; the reply and command codes below use the
      declared length. */
  lemma TableMembership()
    ensures RuleOf(POLL) == Unlisted && RuleOf(ACK) == Unlisted && RuleOf(FILETRANSFER) == Unlisted
    ensures forall c :: (c in {ACURXSIZE, BIOMATCH, BIOREAD, FTSTAT, NAK, BUZ, CAP, COM, ID, ISTATR,
                               KEEPACTIVE, KEYPAD, LED, LSTATR, MFGERRR, OSTATR, OUT, PDCAP, PDID,
                               PIVDATA, PIVDATAR, RAW, RSTATR, TEXT, XRD, XWR}) ==> RuleOf(c) == DeclaredRule
  {
  }

  // ---------------------------------------------------------------------
  // CRC and checksum

  /** A CRC frame whose CRC does not match is never accepted, its plaintext
      is never exposed, and the CRC error counter goes up by exactly one; a
      matching CRC leaves the counter alone. */
  lemma CrcMismatchRejects(env: Env, cfg: Config, role: Role, frame: seq<byte>, link: Link)
    requires FrameAccepted(frame) && CheckSize(frame) == 2
    ensures var r := ParseMessage(env, cfg, role, frame, link);
            && r.msg.Parsed?
            && (CrcMismatch(env, frame, r.msg.checkOffset) ==>
                  && r.status in {BadCrc, BadSequence, NotMyAddr}
                  && r.link.crcErrs == link.crcErrs + 1
                  && r.msg.plaintext == None
                  && r.link.packetsReceived == link.packetsReceived)
            && (!CrcMismatch(env, frame, r.msg.checkOffset) ==> r.link.crcErrs == link.crcErrs)
            && r.link.checksumErrs == link.checksumErrs
  {
    CheckedFacts(env, cfg, role, frame, link);
  }

  /** A checksum mismatch is counted but tolerated: for a frame without a
      security block the result is the same as if the command lookup had
      succeeded, so only the sequence and address checks can still reject
      it. */
  lemma ChecksumMismatchTolerated(env: Env, cfg: Config, role: Role, frame: seq<byte>, link: Link)
    requires FrameAccepted(frame) && CheckSize(frame) == 1 && !HasSecurityBlock(frame)
    requires ChecksumMismatch(env, frame)
    ensures var r := ParseMessage(env, cfg, role, frame, link);
            && r.link.checksumErrs == link.checksumErrs + 1
            && r.link.crcErrs == link.crcErrs
            && r.status in {Ok, MonitorOnly, BadSequence, NotMyAddr}
            && (r.status == Ok <==>
                  (!SequenceRejected(cfg, role, frame, link.nextSequence)
                   && !ForeignAddress(cfg, frame) && cfg.role != Monitor))
  {
    CheckedFacts(env, cfg, role, frame, link);
  }

  /** An ACU outside secure channel that receives an authenticated frame
      drops the session: the expected sequence becomes 0 and the frame is not
      accepted. */
  lemma UnexpectedScsResetsSession(env: Env, cfg: Config, role: Role, frame: seq<byte>, link: Link)
    requires FrameAccepted(frame) && UnexpectedScs(cfg, frame)
    ensures var r := ParseMessage(env, cfg, role, frame, link);
            && r.link.nextSequence == 0
            && r.status in {ScsFromPdUnexpected, BadCrc, BadSequence}
            && r.msg.plaintext == None
  {
    CheckedFacts(env, cfg, role, frame, link);
  }

  // ---------------------------------------------------------------------
  // Sequence numbers

  /** The follower of a sequence number cycles 1, 2, 3, 1 and is never 0. */
  lemma SequenceCycle(s: int)
    requires 0 <= s < 4
    ensures 1 <= NextSequence(s) <= 3
    ensures NextSequence(0) == 1 && NextSequence(1) == 2 && NextSequence(2) == 3 && NextSequence(3) == 1
    ensures NextSequence(NextSequence(NextSequence(NextSequence(s)))) == NextSequence(s)
  {
  }

  /** A rejected sequence number (from the configured address, seen by the
      link's own non-monitor role, wire sequence not 0) counts one bad
      sequence and resets the expectation to 0; unless the address filter
      overrides it the frame is reported BAD_SEQUENCE and marked processed.
      Otherwise the bad-sequence counter is unchanged. */
  lemma BadSequenceResets(env: Env, cfg: Config, role: Role, frame: seq<byte>, link: Link)
    requires FrameAccepted(frame)
    ensures var r := ParseMessage(env, cfg, role, frame, link);
            var expected := ExpectedSequence(cfg, frame, link);
            && (SequenceRejected(cfg, role, frame, expected) ==>
                  && r.link.seqBad == link.seqBad + 1
                  && r.link.nextSequence == 0
                  && r.status in {BadSequence, NotMyAddr}
                  && (r.status == BadSequence ==> r.link.lastWasProcessed)
                  && r.msg.plaintext == None)
            && (!SequenceRejected(cfg, role, frame, expected) ==>
                  r.link.seqBad == link.seqBad && r.link.nextSequence == expected)
  {
    CheckedFacts(env, cfg, role, frame, link);
  }

  /** A frame carrying sequence number 0 is never rejected for its sequence
      number: the bad-sequence counter and the expectation stay as they were. */
  lemma SequenceZeroNeverRejected(env: Env, cfg: Config, role: Role, frame: seq<byte>, link: Link)
    requires FrameAccepted(frame) && frame[4] % 4 == 0
    ensures var r := ParseMessage(env, cfg, role, frame, link);
            r.link.seqBad == link.seqBad && r.link.nextSequence == ExpectedSequence(cfg, frame, link)
  {
    CheckedFacts(env, cfg, role, frame, link);
  }

  // ---------------------------------------------------------------------
  // Address filter, secure channel, bookkeeping

  /** A PD rejects a frame for another PD, does not count it, and never
      decrypts it. */
  lemma ForeignFrameRejected(env: Env, cfg: Config, role: Role, frame: seq<byte>, link: Link)
    requires FrameAccepted(frame) && ForeignAddress(cfg, frame)
    ensures var r := ParseMessage(env, cfg, role, frame, link);
            && r.status == NotMyAddr
            && r.link.packetsReceived == link.packetsReceived
            && r.msg.plaintext == None
  {
    CheckedFacts(env, cfg, role, frame, link);
  }

  /** Plaintext is exposed only for a frame with a security block, outside
      monitor role, after the MAC check and the decryption both succeeded;
      a failed MAC check is never accepted. */
  lemma SecureChannelGating(env: Env, cfg: Config, role: Role, frame: seq<byte>, link: Link)
    requires FrameAccepted(frame)
    ensures var r := ParseMessage(env, cfg, role, frame, link);
            var mac := env.hashCheck(frame, SecBlockType(frame), r.msg.checkOffset - 4,
                                     DeclaredLength(frame) - r.msg.checkSize);
            && (r.msg.plaintext.Some? ==>
                  && HasSecurityBlock(frame) && role != Monitor
                  && mac == Ok
                  && env.decrypt(frame, r.msg.(plaintext := None)).status == Ok
                  && r.msg.plaintext.value == env.decrypt(frame, r.msg.(plaintext := None)).plaintext)
            && (HasSecurityBlock(frame) && role != Monitor && mac != Ok ==>
                  r.status != Ok && r.msg.plaintext == None)
            && (role == Monitor ==> r.msg.plaintext == None)
  {
    CheckedFacts(env, cfg, role, frame, link);
  }

  /** The packet counter goes up only for frames ending OK or MONITOR_ONLY
      and for every frame ending OK; a monitor never reports OK, and counts
      (and reports as MONITOR_ONLY) exactly the frames still OK when the
      bookkeeping starts. */
  lemma AcceptedFramesCounted(env: Env, cfg: Config, role: Role, frame: seq<byte>, link: Link)
    ensures var r := ParseMessage(env, cfg, role, frame, link);
            && (r.link.packetsReceived == link.packetsReceived
                || r.link.packetsReceived == link.packetsReceived + 1)
            && (r.status == Ok ==> r.link.packetsReceived == link.packetsReceived + 1 && cfg.role != Monitor)
            && (r.link.packetsReceived == link.packetsReceived + 1 ==> r.status in {Ok, MonitorOnly})
            && (cfg.role == Monitor ==> r.status != Ok)
            && (cfg.role == Monitor && FrameGate(frame) == Ok ==>
                  var reached := SecureStage(env, role, frame, Checked(env, cfg, role, frame, link));
                  (reached.status == Ok <==> r.link.packetsReceived == link.packetsReceived + 1)
                  && (reached.status == Ok ==> r.status == MonitorOnly))
  {
    if FrameGate(frame) == Ok {
      CheckedFacts(env, cfg, role, frame, link);
    }
  }

  /** The decoded view does not depend on the link record: re-parsing the
      same buffer yields the same message, only the documented link side
      effects (and with them whether decryption runs) differ. */
  lemma ViewIndependentOfLink(env: Env, cfg: Config, role: Role, frame: seq<byte>, link1: Link, link2: Link)
    ensures var r1 := ParseMessage(env, cfg, role, frame, link1);
            var r2 := ParseMessage(env, cfg, role, frame, link2);
            && (r1.msg.Unparsed? ==> r1.msg == r2.msg)
            && (r1.msg.Parsed? ==> r2.msg.Parsed? && r1.msg.(plaintext := None) == r2.msg.(plaintext := None))
  {
    if FrameGate(frame) == Ok {
      CheckedFacts(env, cfg, role, frame, link1);
      CheckedFacts(env, cfg, role, frame, link2);
    }
  }

  // ---------------------------------------------------------------------
  // When a frame is accepted

  /** A frame without a security block ends OK exactly when its integrity
      check lets it through (a CRC frame needs a successful lookup and a
      matching CRC; a checksum frame a successful lookup or a tolerated
      checksum mismatch) and the sequence, address and monitor tests pass;
      an accepted frame is counted. */
  lemma PlainFrameAccepted(env: Env, cfg: Config, role: Role, frame: seq<byte>, link: Link)
    requires FrameAccepted(frame) && !HasSecurityBlock(frame)
    ensures var r := ParseMessage(env, cfg, role, frame, link);
            var chk := LookUp(env, role, frame);
            var lookupOk := chk.status == CmdRepFound || chk.status == Ok;
            var passes := !SequenceRejected(cfg, role, frame, link.nextSequence)
                          && !ForeignAddress(cfg, frame) && cfg.role != Monitor;
            && r.msg.Parsed?
            && (CheckSize(frame) == 2 ==>
                  (r.status == Ok <==> lookupOk && !CrcMismatch(env, frame, r.msg.checkOffset) && passes))
            && (CheckSize(frame) == 1 ==>
                  (r.status == Ok <==> (lookupOk || ChecksumMismatch(env, frame)) && passes))
            && (r.status == Ok ==> r.link.packetsReceived == link.packetsReceived + 1)
  {
    CheckedFacts(env, cfg, role, frame, link);
  }

  /** A frame with a security block ends OK exactly when its integrity check
      lets it through (for a CRC frame this includes not being an unexpected
      authenticated frame at an ACU), the sequence, address and monitor
      tests pass, and, unless the parse runs in monitor role, the MAC check
      and the decryption both succeed; the plaintext is then exposed. */
  lemma SecureFrameAccepted(env: Env, cfg: Config, role: Role, frame: seq<byte>, link: Link)
    requires FrameAccepted(frame) && HasSecurityBlock(frame)
    ensures var r := ParseMessage(env, cfg, role, frame, link);
            var chk := LookUp(env, role, frame);
            var lookupOk := chk.status == CmdRepFound || chk.status == Ok;
            var integrity :=
              if CheckSize(frame) == 2
              then lookupOk && !UnexpectedScs(cfg, frame) && !CrcMismatch(env, frame, r.msg.checkOffset)
              else lookupOk || ChecksumMismatch(env, frame);
            var view := r.msg.(plaintext := None);
            var mac := env.hashCheck(frame, SecBlockType(frame), r.msg.checkOffset - 4,
                                     DeclaredLength(frame) - r.msg.checkSize);
            && r.msg.Parsed?
            && (r.status == Ok <==>
                  && integrity
                  && !SequenceRejected(cfg, role, frame, link.nextSequence)
                  && !ForeignAddress(cfg, frame) && cfg.role != Monitor
                  && (role != Monitor ==> mac == Ok && env.decrypt(frame, view).status == Ok))
            && (r.status == Ok && role != Monitor ==>
                  r.msg.plaintext == Some(env.decrypt(frame, view).plaintext))
  {
    CheckedFacts(env, cfg, role, frame, link);
  }

  /** The expected sequence number stays within 0..3: the parser only ever
      resets it to 0. */
  lemma SequenceStaysInRange(env: Env, cfg: Config, role: Role, frame: seq<byte>, link: Link)
    requires 0 <= link.nextSequence < 4
    ensures var r := ParseMessage(env, cfg, role, frame, link);
            0 <= r.link.nextSequence < 4
            && (r.link.nextSequence == 0 || r.link.nextSequence == link.nextSequence)
  {
    if FrameGate(frame) == Ok {
      CheckedFacts(env, cfg, role, frame, link);
    }
  }

  // ---------------------------------------------------------------------
  // A worked frame and the encoder round trip

  /** A PD at address 0 receiving `osdp_POLL` with sequence 0 and a correct
      checksum, the lookup answering OK without resolving the command:
      accepted and counted; the switch gives the poll no data, so the check
      byte follows the command, and the view's data length is whatever the
      lookup left (an empty payload when that is 0). */
  lemma PollExample(env: Env, link: Link, ck: byte)
    requires env.checksum([SOM, 0x00, 0x07, 0x00, 0x00, POLL]) == ck
    requires env.checkCommand(Pd, POLL, -1).status == Ok
    ensures var frame := [SOM, 0x00, 0x07, 0x00, 0x00, POLL, ck];
            var r := ParseMessage(env, Config(Pd, 0, false), Pd, frame, link);
            && r.status == Ok
            && r.msg.Parsed? && r.msg.hdr.command == POLL
            && r.msg.dataOffset == Some(6) && r.msg.checkOffset == 6
            && r.msg.dataLength == env.checkCommand(Pd, POLL, -1).dataLength
            && (r.msg.dataLength == 0 ==> Payload(frame, r.msg) == Some([]))
            && r.link.packetsReceived == link.packetsReceived + 1
  {
    var frame: seq<byte> := [SOM, 0x00, 0x07, 0x00, 0x00, POLL, ck];
    assert frame[..|frame| - 1] == [SOM, 0x00, 0x07, 0x00, 0x00, POLL];
    assert DeclaredLength(frame) == 7 && CheckSize(frame) == 1;
    assert !HasSecurityBlock(frame) && InitialDataLength(frame) == -1;
    CheckedFacts(env, Config(Pd, 0, false), Pd, frame, link);
  }

  /** The gates never ask the declared length to cover header and check
      bytes: an 8-byte CRC frame declaring length 0 is accepted, and when the
      lookup leaves the length it was handed, the check field lies before the
      start of the frame. */
  lemma ShortDeclaredLengthPassesGates(env: Env, role: Role, link: Link)
    requires env.checkCommand(role, POLL, -8) == CommandCheck(Ok, -8)
    ensures var frame := [SOM, 0x00, 0x00, 0x00, 0x04, POLL, 0x00, 0x00];
            var r := ParseMessage(env, Config(Acu, 0, false), role, frame, link);
            && FrameAccepted(frame)
            && r.msg.Parsed? && r.msg.dataLength == -8 && r.msg.checkOffset == -2
  {
    var frame: seq<byte> := [SOM, 0x00, 0x00, 0x00, 0x04, POLL, 0x00, 0x00];
    assert DeclaredLength(frame) == 0 && CheckSize(frame) == 2;
    assert !HasSecurityBlock(frame) && InitialDataLength(frame) == -8;
    CheckedFacts(env, Config(Acu, 0, false), role, frame, link);
  }

  /** A CRC frame without a security block, as a sender lays it out: header,
      command, data, then the CRC of everything before it, low byte first. */
  function EncodeFrame(crc: seq<byte> -> u16, address: byte, toPd: bool, sequence: int,
                       cmd: byte, data: seq<byte>): (frame: seq<byte>)
    requires address < 0x80 && 0 <= sequence < 4 && |data| <= OFFICIAL_MSG_MAX - 8
    ensures |frame| == |data| + 8
    ensures frame[6..6 + |data|] == data
  {
    var lth := |data| + 8;
    var body := [SOM, if toPd then address else address + 0x80, lth % 256, lth / 256, 4 + sequence, cmd] + data;
    body + DoubleByteToArray(crc(body))
  }

  /** Parsing an encoded frame recovers address, direction, sequence,
      command and payload bytes, and its CRC checks, whenever the command
      lookup keeps the data length it is handed and either resolves the
      command or leaves it to a table row sized from the declared length.
      The frame is then accepted exactly when the lookup succeeded and the
      sequence, address and monitor tests let it through. */
  lemma EncodeParseRoundTrip(env: Env, cfg: Config, role: Role, link: Link, address: byte, toPd: bool,
                             sequence: int, cmd: byte, data: seq<byte>)
    requires address < 0x80 && 0 <= sequence < 4 && |data| <= OFFICIAL_MSG_MAX - 8
    requires var frame := EncodeFrame(env.crc, address, toPd, sequence, cmd, data);
             var chk := LookUp(env, role, frame);
             && chk.dataLength == InitialDataLength(frame)
             && (chk.status == CmdRepFound || RuleOf(cmd) == DeclaredRule)
    ensures var frame := EncodeFrame(env.crc, address, toPd, sequence, cmd, data);
            var r := ParseMessage(env, cfg, role, frame, link);
            var chk := LookUp(env, role, frame);
            && r.msg.Parsed?
            && r.msg.hdr.addr == address
            && r.msg.direction == (if toPd then 0 else 0x80)
            && r.msg.sequence == sequence
            && r.msg.hdr.command == cmd
            && r.msg.security == None
            && r.msg.dataLength == |data|
            && Payload(frame, r.msg) == Some(data)
            && r.link.crcErrs == link.crcErrs
            && (r.status == Ok <==>
                  && (chk.status == CmdRepFound || chk.status == Ok)
                  && !SequenceRejected(cfg, role, frame, link.nextSequence)
                  && !ForeignAddress(cfg, frame) && cfg.role != Monitor)
  {
    var frame := EncodeFrame(env.crc, address, toPd, sequence, cmd, data);
    EncodedFrameLayout(env.crc, address, toPd, sequence, cmd, data);
    CheckedFacts(env, cfg, role, frame, link);
  }

  /** Where the encoder puts each field, as the parser reads it back. */
  lemma EncodedFrameLayout(crc: seq<byte> -> u16, address: byte, toPd: bool, sequence: int, cmd: byte,
                           data: seq<byte>)
    requires address < 0x80 && 0 <= sequence < 4 && |data| <= OFFICIAL_MSG_MAX - 8
    ensures var frame := EncodeFrame(crc, address, toPd, sequence, cmd, data);
            var lth := |data| + 8;
            && FrameAccepted(frame)
            && DeclaredLength(frame) == lth && CheckSize(frame) == 2 && !HasSecurityBlock(frame)
            && Address(frame) == address && frame[1] == (if toPd then address else address + 0x80)
            && WireSequence(frame) == sequence && frame[5] == cmd
            && WireCrc(frame, lth - 2) == crc(frame[..lth - 2])
  {
    var frame := EncodeFrame(crc, address, toPd, sequence, cmd, data);
    var lth := |data| + 8;
    var body := [SOM, if toPd then address else address + 0x80, lth % 256, lth / 256, 4 + sequence, cmd] + data;
    assert frame == body + DoubleByteToArray(crc(body));
    assert frame[2] == lth % 256 && frame[3] == lth / 256 && frame[4] == 4 + sequence;
    assert frame[..lth - 2] == body;
  }

  /** The bytes a checksum frame without a security block carries before its
      check byte: header with control bit 2 clear, command, data. */
  function ChecksumBody(address: byte, toPd: bool, sequence: int, cmd: byte, data: seq<byte>)
    : (body: seq<byte>)
    requires address < 0x80 && 0 <= sequence < 4 && |data| <= OFFICIAL_MSG_MAX - 7
    ensures |body| == |data| + 6 && body[6..] == data
  {
    var lth := |data| + 7;
    [SOM, if toPd then address else address + 0x80, lth % 256, lth / 256, sequence, cmd] + data
  }

  /** A checksum frame as a sender lays it out: the body, then the one-byte
      checksum of the body. */
  function EncodeChecksumFrame(checksum: seq<byte> -> int, address: byte, toPd: bool, sequence: int,
                               cmd: byte, data: seq<byte>): (frame: seq<byte>)
    requires address < 0x80 && 0 <= sequence < 4 && |data| <= OFFICIAL_MSG_MAX - 7
    ensures |frame| == |data| + 7
    ensures frame[6..6 + |data|] == data
  {
    var body := ChecksumBody(address, toPd, sequence, cmd, data);
    body + [checksum(body) % 256]
  }

  /** The same round trip for a checksum frame, as the parser is written: the
      length before the table subtracts two check bytes whatever the check
      size, so a command the lookup resolves or a declared-length row sizes
      gets one data byte too few, the payload loses the last data byte, and
      the check offset lands on that byte instead of on the checksum.  Header
      fields, the checksum test and the acceptance rule are as for a CRC
      frame. */
  lemma ChecksumFrameRoundTrip(env: Env, cfg: Config, role: Role, link: Link, address: byte, toPd: bool,
                               sequence: int, cmd: byte, data: seq<byte>)
    requires address < 0x80 && 0 <= sequence < 4 && |data| <= OFFICIAL_MSG_MAX - 7
    requires 0 <= env.checksum(ChecksumBody(address, toPd, sequence, cmd, data)) < 256
    requires var frame := EncodeChecksumFrame(env.checksum, address, toPd, sequence, cmd, data);
             var chk := LookUp(env, role, frame);
             && chk.dataLength == InitialDataLength(frame)
             && (chk.status == CmdRepFound || RuleOf(cmd) == DeclaredRule)
    ensures var frame := EncodeChecksumFrame(env.checksum, address, toPd, sequence, cmd, data);
            var r := ParseMessage(env, cfg, role, frame, link);
            var chk := LookUp(env, role, frame);
            && r.msg.Parsed?
            && r.msg.checkSize == 1
            && r.msg.hdr.addr == address
            && r.msg.direction == (if toPd then 0 else 0x80)
            && r.msg.sequence == sequence
            && r.msg.hdr.command == cmd
            && r.msg.security == None
            && r.msg.dataLength == |data| - 1
            && (|data| >= 1 ==> Payload(frame, r.msg) == Some(data[..|data| - 1]))
            && (|data| == 0 ==> Payload(frame, r.msg) == None)
            && r.msg.checkOffset == |frame| - 2
            && r.link.checksumErrs == link.checksumErrs
            && (r.status == Ok <==>
                  && (chk.status == CmdRepFound || chk.status == Ok)
                  && !SequenceRejected(cfg, role, frame, link.nextSequence)
                  && !ForeignAddress(cfg, frame) && cfg.role != Monitor)
  {
    var frame := EncodeChecksumFrame(env.checksum, address, toPd, sequence, cmd, data);
    ChecksumFrameLayout(env.checksum, address, toPd, sequence, cmd, data);
    assert !ChecksumMismatch(env, frame);
    CheckedFacts(env, cfg, role, frame, link);
    PlainFrameAccepted(env, cfg, role, frame, link);
    if |data| >= 1 {
      assert frame[6..6 + |data| - 1] == data[..|data| - 1];
    }
  }

  /** Where the checksum encoder puts each field, as the parser reads it
      back. */
  lemma ChecksumFrameLayout(checksum: seq<byte> -> int, address: byte, toPd: bool, sequence: int,
                            cmd: byte, data: seq<byte>)
    requires address < 0x80 && 0 <= sequence < 4 && |data| <= OFFICIAL_MSG_MAX - 7
    ensures var frame := EncodeChecksumFrame(checksum, address, toPd, sequence, cmd, data);
            var body := ChecksumBody(address, toPd, sequence, cmd, data);
            && FrameAccepted(frame)
            && DeclaredLength(frame) == |data| + 7 && CheckSize(frame) == 1 && !HasSecurityBlock(frame)
            && InitialDataLength(frame) == |data| - 1
            && Address(frame) == address && frame[1] == (if toPd then address else address + 0x80)
            && WireSequence(frame) == sequence && frame[5] == cmd
            && frame[..|frame| - 1] == body && frame[|frame| - 1] == checksum(body) % 256
  {
    var frame := EncodeChecksumFrame(checksum, address, toPd, sequence, cmd, data);
    var body := ChecksumBody(address, toPd, sequence, cmd, data);
    var lth := |data| + 7;
    assert frame == body + [checksum(body) % 256];
    assert frame[2] == lth % 256 && frame[3] == lth / 256 && frame[4] == sequence;
    assert frame[..|frame| - 1] == body;
  }
}

=== FILE: prims.dfy ===
/**
 Small helpers of oo-prims.c: the response address, the "awaiting a
 response" test, the hex-string decoder, timer restart and LED validation.
 */
module Prims {
  import opened Bytes
  import opened Osdp

  /** oo_response_address: both branches answer to the address the command
      came from, whether or not it is the configuration address. */
  function ResponseAddress(fromAddress: byte): (r: byte)
    ensures r == fromAddress
  {
    if fromAddress != CONFIGURATION_ADDRESS then fromAddress else CONFIGURATION_ADDRESS
  }

  /** State of one of the context's timers. */
  datatype TimerState = Stopped | Restarted | Running

  /** One timer of the context: presets and the running countdown. */
  datatype Timer = Timer(
    status: TimerState,
    presetSeconds: int,
    presetNanoseconds: int,
    currentSeconds: int,
    currentNanoseconds: int)

  /** osdp_awaiting_response: 1 while a reply is still outstanding, that is
      while the last frame was not processed and the response timer has not
      stopped. */
  function AwaitingResponse(lastWasProcessed: bool, responseTimer: Timer): (r: int)
    ensures r == 0 || r == 1
    ensures r == 0 <==> lastWasProcessed || responseTimer.status == Stopped
  {
    if lastWasProcessed then 0
    else if responseTimer.status == Stopped then 0
    else 1
  }

  /** osdp_timer_start: restart timer `index` from its presets.  Only presets
      greater than zero are reloaded, and only they mark the timer restarted.
      The table holds timers 0 through `timerMax` (OSDP_TIMER_MAX). */
  function TimerStart(timers: seq<Timer>, timerMax: int, index: int): (r: (Status, seq<Timer>))
    requires timerMax < |timers|
    ensures index < 0 || index > timerMax ==> r.0 == BadTimer && r.1 == timers
    ensures 0 <= index <= timerMax ==> r.0 == Ok && |r.1| == |timers|
    ensures 0 <= index <= timerMax ==>
      forall j :: 0 <= j < |timers| && j != index ==> r.1[j] == timers[j]
    ensures 0 <= index <= timerMax ==>
      var t, t' := timers[index], r.1[index];
      && t'.presetSeconds == t.presetSeconds
      && t'.presetNanoseconds == t.presetNanoseconds
      && t'.currentSeconds == (if t.presetSeconds > 0 then t.presetSeconds else t.currentSeconds)
      && t'.currentNanoseconds ==
           (if t.presetNanoseconds > 0 then t.presetNanoseconds else t.currentNanoseconds)
      && (t'.status == Restarted <==> t.presetSeconds > 0 || t.presetNanoseconds > 0 || t.status == Restarted)
      && (t.presetSeconds <= 0 && t.presetNanoseconds <= 0 ==> t'.status == t.status)
  {
    if index < 0 || index > timerMax then (BadTimer, timers)
    else
      var t := timers[index];
      var t1 := if t.presetSeconds > 0
        then t.(currentSeconds := t.presetSeconds, status := Restarted) else t;
      var t2 := if t1.presetNanoseconds > 0
        then t1.(currentNanoseconds := t1.presetNanoseconds, status := Restarted) else t1;
      (Ok, timers[index := t2])
  }

  /** Restarting a timer a second time changes nothing more. */
  lemma TimerStartIdempotent(timers: seq<Timer>, timerMax: int, index: int)
    requires timerMax < |timers|
    ensures TimerStart(TimerStart(timers, timerMax, index).1, timerMax, index)
            == TimerStart(timers, timerMax, index)
  {
    var once := TimerStart(timers, timerMax, index);
    if 0 <= index <= timerMax {
      var twice := TimerStart(once.1, timerMax, index);
      assert twice.1[index] == once.1[index];
      assert twice.1 == once.1;
    }
  }

  /** The part of OSDP_RDR_LED_CTL the validator looks at. */
  datatype LedControl = LedControl(reader: byte)

  /** osdp_validate_led_values: always succeeds; a command for any reader
      other than 0 records a NAK "unable to process" detail of length 1. */
  function ValidateLedValues(leds: LedControl, errDetails: seq<byte>, errLength: int)
    : (r: (Status, seq<byte>, int))
    requires |errDetails| >= 1
    ensures r.0 == Ok
    ensures |r.1| == |errDetails| && r.1[1..] == errDetails[1..]
    ensures leds.reader != 0 ==> r.1[0] == NAK_CMD_UNABLE && r.2 == 1
    ensures leds.reader == 0 ==> r.1 == errDetails && r.2 == errLength
  {
    if leds.reader != 0 then (Ok, errDetails[0 := NAK_CMD_UNABLE], 1)
    else (Ok, errDetails, errLength)
  }

  /** Validating the same LED command again against the details the first
      validation left changes nothing: the NAK record is written at most
      once. */
  lemma ValidateLedValuesIdempotent(leds: LedControl, errDetails: seq<byte>, errLength: int)
    requires |errDetails| >= 1
    ensures var once := ValidateLedValues(leds, errDetails, errLength);
            ValidateLedValues(leds, once.1, once.2) == once
  {
    if leds.reader != 0 {
      var details := errDetails[0 := NAK_CMD_UNABLE];
      assert details[0 := NAK_CMD_UNABLE] == details;
    }
  }

  // ---------------------------------------------------------------------
  // Hex strings

  predicate IsHexDigit(c: char) {
    ('0' <= c <= '9') || ('a' <= c <= 'f') || ('A' <= c <= 'F')
  }

  function HexValue(c: char): (v: nat)
    requires IsHexDigit(c)
    ensures v < 16
  {
    if '0' <= c <= '9' then (c - '0') as nat
    else if 'a' <= c <= 'f' then (c - 'a') as nat + 10
    else (c - 'A') as nat + 10
  }

  function HexDigit(v: nat): (c: char)
    requires v < 16
    ensures IsHexDigit(c) && HexValue(c) == v
  {
    if v < 10 then '0' + v as char else 'a' + (v - 10) as char
  }

  predicate IsHexString(s: string) {
    forall i :: 0 <= i < |s| ==> IsHexDigit(s[i])
  }

  /** What `sscanf("%x")` reads from the (at most) two characters starting at
      `i`: two digits when both are present, one at the end of an odd-length
      string. */
  function PairValue(s: string, i: nat): (v: byte)
    requires IsHexString(s) && i < |s|
  {
    if i + 1 < |s| then 16 * HexValue(s[i]) + HexValue(s[i + 1]) else HexValue(s[i])
  }

  /** osdp_string_to_buffer: decode a hex string two characters at a time.
      The returned length is stored in an `unsigned short`; the status is
      always 0. */
  method StringToBuffer(s: string) returns (buffer: seq<byte>, lengthReturned: u16, status: int)
    requires IsHexString(s)
    ensures status == 0
    ensures |buffer| == (|s| + 1) / 2
    ensures lengthReturned == |buffer| % 0x1_0000
    ensures forall k :: 0 <= k < |buffer| ==> buffer[k] == PairValue(s, 2 * k)
  {
    var returnedLength := 0;
    buffer := [];
    var idx := 0;
    while idx < |s|
      invariant 0 <= idx <= |s| + 1 && idx % 2 == 0
      invariant |buffer| == idx / 2 && returnedLength == |buffer|
      invariant forall k :: 0 <= k < |buffer| ==> buffer[k] == PairValue(s, 2 * k)
    {
      buffer := buffer + [PairValue(s, idx)];
      returnedLength := returnedLength + 1;
      idx := idx + 2;
    }
    lengthReturned := ToU16(returnedLength);
    status := 0;
  }

  /** Lower-case hex rendering of a byte string, two characters per byte:
      the encoding `StringToBuffer` inverts. */
  function ToHex(b: seq<byte>): (s: string)
    ensures |s| == 2 * |b|
    ensures IsHexString(s)
  {
    if b == [] then [] else [HexDigit(b[0] / 16), HexDigit(b[0] % 16)] + ToHex(b[1..])
  }

  /** Every byte of a rendered string decodes back to the byte it came from. */
  lemma {:induction false} HexRoundTrip(b: seq<byte>)
    ensures forall k :: 0 <= k < |b| ==> PairValue(ToHex(b), 2 * k) == b[k]
  {
    if b != [] {
      var s := ToHex(b);
      var rest := ToHex(b[1..]);
      HexRoundTrip(b[1..]);
      assert s == [HexDigit(b[0] / 16), HexDigit(b[0] % 16)] + rest;
      forall k | 0 <= k < |b|
        ensures PairValue(s, 2 * k) == b[k]
      {
        if k == 0 {
          assert s[0] == HexDigit(b[0] / 16) && s[1] == HexDigit(b[0] % 16);
        } else {
          assert s[2 * k] == rest[2 * (k - 1)] && s[2 * k + 1] == rest[2 * (k - 1) + 1];
          assert PairValue(rest, 2 * (k - 1)) == b[1..][k - 1];
        }
      }
    }
  }

  /** Decoding the rendering of a byte string with `StringToBuffer` gives the
      byte string back, with its length. */
  method HexDecodeOfEncode(b: seq<byte>) returns (decoded: seq<byte>, n: u16)
    ensures decoded == b
    ensures n == |b| % 0x1_0000
  {
    var st;
    decoded, n, st := StringToBuffer(ToHex(b));
    HexRoundTrip(b);
  }
}

=== FILE: transfer.dfy ===
/**
 The file-transfer exchange of oo-actions.c: action_osdp_FILETRANSFER, the
 PD side that stores each received fragment and answers with an
 osdp_FTSTAT, and action_osdp_FTSTAT, the ACU side that reacts to that
 answer by sending the next fragment or ending the transfer.

 The receiving handler is a chain of stages over one `Step` record, in the
 order of the C code: open the sink for a fragment at offset 0, write the
 fragment and reply, then turn any failure left over into an abort reply.
 Every FTSTAT the handler tries to send is recorded in `replies`; one call
 sends at most three, and the result of the k-th send is `SendResult(io, k)`.
 */
module FileTransfer {
  import opened Bytes
  import opened Osdp

  /** The transfer context (xferctx): offset reached, total length, whether
      the sink file is open, and the sink's contents. */
  datatype Transfer = Transfer(currentOffset: int, totalLength: int, sinkOpen: bool, file: seq<byte>)

  /** No transfer in progress. */
  predicate Idle(t: Transfer) {
    t.currentOffset == 0 && t.totalLength == 0 && !t.sinkOpen
  }

  /** osdp_wrapup_filetransfer: close the sink and reset offset and length;
      what was written stays written. */
  function Wrapup(t: Transfer): (r: Transfer)
    ensures Idle(r) && r.file == t.file
  {
    Transfer(0, 0, false, t.file)
  }

  /** An osdp_FTSTAT reply: FtStatusDetail and FtUpdateMsgMax. */
  datatype FtStat = FtStat(detail: u16, updateMsgMax: u16)

  /** The fragment as osdp_filetransfer_validate reports it: its verdict,
      FtFragmentSize, FtOffset and the FtData bytes handed to the write. */
  datatype Fragment = Fragment(status: Status, fragmentSize: u16, offset: u32, data: seq<byte>)

  /** The environment during one receive step: whether fopen succeeds, the
      count fwrite returns, the statuses of the first, second and third FTSTAT
      send, and the size oo_filetransfer_SDU_offer proposes. */
  datatype ReceiveIo = ReceiveIo(openSucceeds: bool, written: nat, sends: (Status, Status, Status), sduOffer: int)

  /** The status of the k-th send of the step (counting from 0). */
  function SendResult(io: ReceiveIo, k: nat): Status {
    if k == 0 then io.sends.0 else if k == 1 then io.sends.1 else io.sends.2
  }

  /** Well-formed inputs: the data is the fragment_size bytes fwrite is given,
      and fwrite never reports more than it was asked to write. */
  predicate WellFormed(frag: Fragment, io: ReceiveIo) {
    |frag.data| == frag.fragmentSize && io.written <= frag.fragmentSize
  }

  /** The handler's working state: status, transfer, the response buffer,
      the replies sent so far, and whether a write went to a closed sink. */
  datatype Step = Step(status: Status, transfer: Transfer, response: FtStat, replies: seq<FtStat>,
                       wroteClosedSink: bool)

  /** Set the response's status detail and send it; the send's status becomes
      the step's status. */
  function Emit(s: Step, detail: u16, io: ReceiveIo): (r: Step)
    ensures r.response == s.response.(detail := detail)
    ensures r.replies == s.replies + [r.response]
    ensures r.status == SendResult(io, |s.replies|)
    ensures r.transfer == s.transfer && r.wroteClosedSink == s.wroteClosedSink
  {
    var resp := s.response.(detail := detail);
    Step(SendResult(io, |s.replies|), s.transfer, resp, s.replies + [resp], s.wroteClosedSink)
  }

  /** The size offered for the next fragment: a configured
      pd_filetransfer_payload overrides the computed offer. */
  function OfferedSize(pdPayload: int, sduOffer: int): (n: int)
    ensures pdPayload > 0 ==> n == pdPayload
    ensures pdPayload <= 0 ==> n == sduOffer
  {
    if pdPayload > 0 then pdPayload else sduOffer
  }

  /** A fragment at offset 0 opens (and truncates) the sink.  When the open
      fails the status becomes BAD_TRANSFER_SAVE, an abort is sent, its send
      status replaces BAD_TRANSFER_SAVE, and the transfer is wrapped up. */
  function OpenStage(t: Transfer, frag: Fragment, io: ReceiveIo): (r: Step)
    ensures r.transfer.totalLength == t.totalLength || Idle(r.transfer)
    ensures !r.wroteClosedSink
    ensures frag.status != Ok || frag.offset != 0 ==> r == Step(frag.status, t, FtStat(0, 0), [], false)
    ensures frag.status == Ok && frag.offset == 0 && io.openSucceeds ==>
      r == Step(Ok, t.(sinkOpen := true, file := []), FtStat(0, 0), [], false)
    ensures frag.status == Ok && frag.offset == 0 && !io.openSucceeds ==>
      && r.replies == [FtStat(FTSTAT_ABORT_TRANSFER, 0)]
      && r.status == SendResult(io, 0)
      && r.transfer == Wrapup(t)
  {
    var s := Step(frag.status, t, FtStat(0, 0), [], false);
    if s.status == Ok && frag.offset == 0 then
      if io.openSucceeds then s.(transfer := t.(sinkOpen := true, file := []))
      else
        var failed := s.(status := BadTransferSave, transfer := t.(sinkOpen := false));
        var aborted := Emit(failed, FTSTAT_ABORT_TRANSFER, io);
        aborted.(transfer := Wrapup(aborted.transfer))
    else s
  }

  /** Write the fragment.  A short write sends an abort and wraps up without
      advancing the offset; a full write advances the offset by the fragment
      size and then either completes the transfer (PROCESSED, wrap up) or
      sends OK with the offered size for the next fragment. */
  function WriteStage(s: Step, frag: Fragment, io: ReceiveIo, pdPayload: int): (r: Step)
    requires WellFormed(frag, io)
    ensures s.status != Ok ==> r == s
    ensures s.status == Ok ==>
      && r.wroteClosedSink == !s.transfer.sinkOpen
      && r.transfer.file ==
           (if s.transfer.sinkOpen then s.transfer.file + frag.data[..io.written] else s.transfer.file)
      && |r.replies| == |s.replies| + 1
      && r.status == SendResult(io, |s.replies|)
    ensures s.status == Ok && io.written != frag.fragmentSize ==>
      && r.replies[|s.replies|].detail == FTSTAT_ABORT_TRANSFER
      && Idle(r.transfer)
    ensures s.status == Ok && io.written == frag.fragmentSize ==>
      var reached := s.transfer.currentOffset + frag.fragmentSize;
      && (reached == s.transfer.totalLength ==>
            r.replies[|s.replies|].detail == FTSTAT_PROCESSED && Idle(r.transfer))
      && (reached != s.transfer.totalLength ==>
            && r.replies[|s.replies|] == FtStat(FTSTAT_OK, ToU16(OfferedSize(pdPayload, io.sduOffer)))
            && r.transfer == s.transfer.(currentOffset := reached, file := r.transfer.file))
  {
    if s.status == Ok then
      var t := s.transfer;
      var t1 := if t.sinkOpen then t.(file := t.file + frag.data[..io.written]) else t;
      var s1 := s.(transfer := t1, wroteClosedSink := !t.sinkOpen);
      if io.written != frag.fragmentSize then
        var aborted := Emit(s1, FTSTAT_ABORT_TRANSFER, io);
        aborted.(transfer := Wrapup(aborted.transfer))
      else
        var t2 := t1.(currentOffset := t1.currentOffset + frag.fragmentSize);
        var s2 := s1.(transfer := t2);
        if t2.currentOffset == t2.totalLength then
          var done := Emit(s2, FTSTAT_PROCESSED, io);
          done.(transfer := Wrapup(done.transfer))
        else
          var offered := OfferedSize(pdPayload, io.sduOffer);
          var s3 := s2.(response := s2.response.(updateMsgMax := ToU16(offered)));
          Emit(s3, FTSTAT_OK, io)
    else s
  }

  /** Any failure still standing is answered with an abort; the transfer is
      wrapped up only if that abort went out, and the handler reports OK. */
  function RecoverStage(s: Step, io: ReceiveIo): (r: Step)
    ensures r.status == Ok
    ensures s.status == Ok ==> r == s
    ensures s.status != Ok ==>
      && r.replies == s.replies + [s.response.(detail := FTSTAT_ABORT_TRANSFER)]
      && r.transfer == (if SendResult(io, |s.replies|) == Ok then Wrapup(s.transfer) else s.transfer)
  {
    if s.status != Ok then
      var aborted := Emit(s, FTSTAT_ABORT_TRANSFER, io);
      var t := if aborted.status == Ok then Wrapup(aborted.transfer) else aborted.transfer;
      aborted.(transfer := t, status := Ok)
    else s
  }

  /** action_osdp_FILETRANSFER: handle one received fragment. */
  function ReceiveFragment(t: Transfer, frag: Fragment, io: ReceiveIo, pdPayload: int): (r: Step)
    requires WellFormed(frag, io)
    ensures r.status == Ok
    ensures 1 <= |r.replies| <= 3
  {
    RecoverStage(WriteStage(OpenStage(t, frag, io), frag, io, pdPayload), io)
  }

  // ---------------------------------------------------------------------
  // The ACU side

  /** What the ACU's environment reports: the osdp_ftstat_validate verdict,
      and the status of osdp_send_filetransfer with the offset the context
      holds after it. */
  datatype FtStatIo = FtStatIo(validation: Status, sendStatus: Status, offsetAfterSend: int)

  /** Status, transfer, and whether a next fragment was sent. */
  datatype FtStatResult = FtStatResult(status: Status, transfer: Transfer, chunkSent: bool)

  /** action_osdp_FTSTAT: a FINISHING verdict counts as OK; a WRAPUP verdict
      ends the transfer; on OK the next fragment is sent while data remains,
      and the transfer is wrapped up once it is empty or complete. */
  function OnFtStat(t: Transfer, io: FtStatIo): (r: FtStatResult)
    ensures io.validation == FileXferWrapup ==> r == FtStatResult(Ok, Wrapup(t), false)
    ensures io.validation == Ok || io.validation == FileXferFinishing ==>
      && (r.chunkSent <==> t.totalLength > 0 && t.totalLength > t.currentOffset)
      && var sent := if r.chunkSent then t.(currentOffset := io.offsetAfterSend) else t;
         && r.status == (if r.chunkSent then io.sendStatus else Ok)
         && (sent.totalLength == 0 || sent.totalLength == sent.currentOffset ==> r.transfer == Wrapup(sent))
         && (sent.totalLength != 0 && sent.totalLength != sent.currentOffset ==> r.transfer == sent)
    ensures io.validation !in {Ok, FileXferFinishing, FileXferWrapup} ==>
      r == FtStatResult(io.validation, t, false)
  {
    var st := if io.validation == FileXferFinishing then Ok else io.validation;
    if st == FileXferWrapup then FtStatResult(Ok, Wrapup(t), false)
    else if st == Ok then
      var more := t.totalLength > 0 && t.totalLength > t.currentOffset;
      var st1 := if more then io.sendStatus else st;
      var t1 := if more then t.(currentOffset := io.offsetAfterSend) else t;
      var t2 := if t1.totalLength == 0 || t1.totalLength == t1.currentOffset then Wrapup(t1) else t1;
      FtStatResult(st1, t2, more)
    else FtStatResult(st, t, false)
  }
}

=== FILE: transfer_props.dfy ===
/**
 Properties of the file-transfer handlers: what one fragment produces on
 each path through action_osdp_FILETRANSFER, a whole transfer under an
 environment where every open, write and send succeeds, and the ACU-side
 reaction to an osdp_FTSTAT.
 */
module FileTransferProps {
  import opened Bytes
  import opened Osdp
  import opened FileTransfer

  /** An abort reply from a freshly cleared response buffer. */
  const ABORT: FtStat := FtStat(FTSTAT_ABORT_TRANSFER, 0)

  /** A fragment the validator rejected is answered by one abort, with
      nothing written; the transfer is wrapped up if that abort went out. */
  lemma RejectedFragmentAborts(t: Transfer, frag: Fragment, io: ReceiveIo, pdPayload: int)
    requires WellFormed(frag, io) && frag.status != Ok
    ensures var r := ReceiveFragment(t, frag, io, pdPayload);
      && r.replies == [ABORT]
      && r.transfer == (if SendResult(io, 0) == Ok then Wrapup(t) else t)
      && !r.wroteClosedSink
  {
  }

  /** A write that stores fewer bytes than the fragment holds aborts the
      transfer: the first reply is an abort, a second abort follows only if
      the first could not be sent, and the transfer ends idle either way
      with the partial write kept. */
  lemma ShortWriteAborts(t: Transfer, frag: Fragment, io: ReceiveIo, pdPayload: int)
    requires WellFormed(frag, io) && frag.status == Ok
    requires frag.offset == 0 ==> io.openSucceeds
    requires frag.offset != 0 ==> t.sinkOpen
    requires io.written < frag.fragmentSize
    ensures var r := ReceiveFragment(t, frag, io, pdPayload);
      var base := if frag.offset == 0 then [] else t.file;
      && r.replies == (if SendResult(io, 0) == Ok then [ABORT] else [ABORT, ABORT])
      && Idle(r.transfer)
      && r.transfer.file == base + frag.data[..io.written]
      && !r.wroteClosedSink
  {
    var s0 := OpenStage(t, frag, io);
    var s1 := WriteStage(s0, frag, io, pdPayload);
    assert s1.replies == [ABORT];
  }

  /** A complete fragment that does not finish the transfer advances the
      offset by its size, appends it to the sink, and is answered by one OK
      carrying the offered size; should that reply fail to go out, an abort
      that still carries the offered size follows, and the transfer is
      wrapped up once the abort is sent. */
  lemma FullWriteAdvances(t: Transfer, frag: Fragment, io: ReceiveIo, pdPayload: int)
    requires WellFormed(frag, io) && frag.status == Ok
    requires frag.offset == 0 ==> io.openSucceeds
    requires frag.offset != 0 ==> t.sinkOpen
    requires io.written == frag.fragmentSize
    requires t.currentOffset + frag.fragmentSize != t.totalLength
    ensures var r := ReceiveFragment(t, frag, io, pdPayload);
      var offer := ToU16(OfferedSize(pdPayload, io.sduOffer));
      var base := if frag.offset == 0 then [] else t.file;
      var advanced := Transfer(t.currentOffset + frag.fragmentSize, t.totalLength, true, base + frag.data);
      && r.replies[0] == FtStat(FTSTAT_OK, offer)
      && (SendResult(io, 0) == Ok ==> r.replies == [FtStat(FTSTAT_OK, offer)] && r.transfer == advanced)
      && (SendResult(io, 0) != Ok ==>
            && r.replies == [FtStat(FTSTAT_OK, offer), FtStat(FTSTAT_ABORT_TRANSFER, offer)]
            && r.transfer == (if SendResult(io, 1) == Ok then Wrapup(advanced) else advanced))
  {
    var s0 := OpenStage(t, frag, io);
    assert s0.transfer.sinkOpen && s0.transfer.file == (if frag.offset == 0 then [] else t.file);
    assert frag.data[..io.written] == frag.data;
  }

  /** The fragment that brings the offset to the total length is answered by
      PROCESSED and ends the transfer with the whole fragment stored. */
  lemma LastFragmentCompletes(t: Transfer, frag: Fragment, io: ReceiveIo, pdPayload: int)
    requires WellFormed(frag, io) && frag.status == Ok
    requires frag.offset == 0 ==> io.openSucceeds
    requires frag.offset != 0 ==> t.sinkOpen
    requires io.written == frag.fragmentSize
    requires t.currentOffset + frag.fragmentSize == t.totalLength
    requires SendResult(io, 0) == Ok
    ensures var r := ReceiveFragment(t, frag, io, pdPayload);
      var base := if frag.offset == 0 then [] else t.file;
      && r.replies == [FtStat(FTSTAT_PROCESSED, 0)]
      && Idle(r.transfer)
      && r.transfer.file == base + frag.data
  {
    assert frag.data[..io.written] == frag.data;
  }

  /** Every OK reply offers the configured pd_filetransfer_payload when one
      is set, and the SDU offer otherwise, truncated to 16 bits. */
  lemma OkRepliesCarryOffer(t: Transfer, frag: Fragment, io: ReceiveIo, pdPayload: int)
    requires WellFormed(frag, io)
    ensures var r := ReceiveFragment(t, frag, io, pdPayload);
      forall i :: 0 <= i < |r.replies| && r.replies[i].detail == FTSTAT_OK ==>
        r.replies[i].updateMsgMax == ToU16(if pdPayload > 0 then pdPayload else io.sduOffer)
  {
    var s0 := OpenStage(t, frag, io);
    var s1 := WriteStage(s0, frag, io, pdPayload);
    var r := RecoverStage(s1, io);
    assert forall i :: 0 <= i < |s0.replies| ==> s0.replies[i].detail == FTSTAT_ABORT_TRANSFER;
    if s1.status != Ok {
      assert r.replies[|s1.replies|].detail == FTSTAT_ABORT_TRANSFER;
    }
  }

  /** The quirk of a failed open: the abort is sent and the transfer wrapped
      up, but when that abort goes out the status is OK again, so the
      fragment is still "written" to the closed sink.  A complete write then
      counts from offset zero against a total of zero and is answered by an
      OK as if the transfer were under way. */
  lemma FailedOpenStillWrites(t: Transfer, frag: Fragment, io: ReceiveIo, pdPayload: int)
    requires WellFormed(frag, io) && frag.status == Ok && frag.offset == 0
    requires !io.openSucceeds && SendResult(io, 0) == Ok && SendResult(io, 1) == Ok
    requires io.written == frag.fragmentSize > 0
    ensures var r := ReceiveFragment(t, frag, io, pdPayload);
      && r.wroteClosedSink
      && r.replies == [ABORT, FtStat(FTSTAT_OK, ToU16(OfferedSize(pdPayload, io.sduOffer)))]
      && r.transfer == Transfer(frag.fragmentSize, 0, false, t.file)
  {
    var s0 := OpenStage(t, frag, io);
    assert s0.transfer == Wrapup(t) && s0.replies == [ABORT];
  }

  /** A fragment at a non-zero offset while no sink is open (before any
      fragment at offset zero, or after a wrap-up) opens nothing and still
      goes to the write.  A full write that does not reach the total then
      advances the offset and is answered by OK, with nothing stored. */
  lemma ClosedSinkStillWrites(t: Transfer, frag: Fragment, io: ReceiveIo, pdPayload: int)
    requires WellFormed(frag, io) && frag.status == Ok && frag.offset != 0 && !t.sinkOpen
    requires io.written == frag.fragmentSize && SendResult(io, 0) == Ok
    requires t.currentOffset + frag.fragmentSize != t.totalLength
    ensures var r := ReceiveFragment(t, frag, io, pdPayload);
      && r.wroteClosedSink
      && r.replies == [FtStat(FTSTAT_OK, ToU16(OfferedSize(pdPayload, io.sduOffer)))]
      && r.transfer == t.(currentOffset := t.currentOffset + frag.fragmentSize)
  {
  }

  // ---------------------------------------------------------------------
  // A whole transfer

  /** Every fragment fits in the 16-bit FtFragmentSize. */
  predicate Fits(frags: seq<seq<byte>>) {
    forall i :: 0 <= i < |frags| ==> |frags[i]| < 0x1_0000
  }

  predicate NonEmpty(frags: seq<seq<byte>>) {
    forall i :: 0 <= i < |frags| ==> |frags[i]| > 0
  }

  function TotalSize(frags: seq<seq<byte>>): nat {
    if frags == [] then 0 else |frags[0]| + TotalSize(frags[1..])
  }

  function Concat(frags: seq<seq<byte>>): seq<byte> {
    if frags == [] then [] else frags[0] + Concat(frags[1..])
  }

  /** An environment in which the open, the write and every send succeed. */
  function IdealIo(size: nat, sduOffer: int): ReceiveIo {
    ReceiveIo(true, size, (Ok, Ok, Ok), sduOffer)
  }

  /** n OK replies offering `offer`. */
  function OkReplies(n: nat, offer: u16): (rs: seq<FtStat>)
    ensures |rs| == n
  {
    seq(n, _ => FtStat(FTSTAT_OK, offer))
  }

  /** Feed `frags` to the handler in order, starting at `offset`, each
      fragment declaring the total length `total` (which the validator
      records in the context), collecting the replies. */
  function Deliver(t: Transfer, frags: seq<seq<byte>>, offset: nat, total: int, pdPayload: int, sduOffer: int)
    : (Transfer, seq<FtStat>)
    requires Fits(frags) && offset + TotalSize(frags) < 0x1_0000_0000
    decreases |frags|, 1, 0
  {
    if frags == [] then (t, []) else DeliverFirst(t, frags, offset, total, pdPayload, sduOffer)
  }

  /** Send the first fragment at `offset`, then the rest. */
  function DeliverFirst(t: Transfer, frags: seq<seq<byte>>, offset: nat, total: int, pdPayload: int, sduOffer: int)
    : (Transfer, seq<FtStat>)
    requires Fits(frags) && frags != [] && offset + TotalSize(frags) < 0x1_0000_0000
    decreases |frags|, 0, 1
  {
    DeliverFragment(t, Fragment(Ok, |frags[0]|, offset, frags[0]), frags[1..], total, pdPayload, sduOffer)
  }

  /** Let the handler store `frag`, then deliver the fragments after it
      from the context it leaves. */
  function DeliverFragment(t: Transfer, frag: Fragment, frags: seq<seq<byte>>, total: int, pdPayload: int,
                           sduOffer: int): (Transfer, seq<FtStat>)
    requires |frag.data| == frag.fragmentSize
    requires Fits(frags) && frag.offset + frag.fragmentSize + TotalSize(frags) < 0x1_0000_0000
    decreases |frags| + 1, 0, 0
  {
    var step := ReceiveFragment(t.(totalLength := total), frag, IdealIo(frag.fragmentSize, sduOffer), pdPayload);
    var rest := Deliver(step.transfer, frags, frag.offset + frag.fragmentSize, total, pdPayload, sduOffer);
    (rest.0, step.replies + rest.1)
  }

  /** One fragment under an ideal environment: a fragment short of the
      total is stored and answered by OK, the last one by PROCESSED. */
  lemma IdealStep(t: Transfer, f: seq<byte>, offset: nat, total: int, pdPayload: int, sduOffer: int)
    requires 0 < |f| < 0x1_0000 && offset + |f| <= total < 0x1_0000_0000
    requires t.currentOffset == offset
    requires offset != 0 ==> t.sinkOpen
    ensures var step := ReceiveFragment(t.(totalLength := total), Fragment(Ok, |f|, offset, f),
                                        IdealIo(|f|, sduOffer), pdPayload);
      var base := if offset == 0 then [] else t.file;
      && (offset + |f| == total ==>
            step.replies == [FtStat(FTSTAT_PROCESSED, 0)] && Idle(step.transfer) && step.transfer.file == base + f)
      && (offset + |f| < total ==>
            && step.replies == [FtStat(FTSTAT_OK, ToU16(OfferedSize(pdPayload, sduOffer)))]
            && step.transfer == Transfer(offset + |f|, total, true, base + f))
  {
    var frag := Fragment(Ok, |f|, offset, f);
    var io := IdealIo(|f|, sduOffer);
    assert SendResult(io, 0) == Ok;
    if offset + |f| == total {
      LastFragmentCompletes(t.(totalLength := total), frag, io, pdPayload);
    } else {
      FullWriteAdvances(t.(totalLength := total), frag, io, pdPayload);
    }
  }

  lemma AppendAssoc<T>(a: seq<T>, b: seq<T>, c: seq<T>)
    ensures a + b + c == a + (b + c)
  {
  }

  /** Prefixing one OK reply to a run of OKs ending in PROCESSED. */
  lemma OneMoreOk(first: seq<FtStat>, rest: seq<FtStat>, n: nat, offer: u16)
    requires n >= 1 && first == [FtStat(FTSTAT_OK, offer)]
    requires rest == OkReplies(n - 1, offer) + [FtStat(FTSTAT_PROCESSED, 0)]
    ensures first + rest == OkReplies(n, offer) + [FtStat(FTSTAT_PROCESSED, 0)]
  {
    assert OkReplies(n, offer) == first + OkReplies(n - 1, offer);
    AppendAssoc(first, OkReplies(n - 1, offer), [FtStat(FTSTAT_PROCESSED, 0)]);
  }

  /** Delivering the first of several fragments: it is stored, answered by
      OK, and the rest is delivered from the advanced context. */
  lemma DeliverHead(t: Transfer, frags: seq<seq<byte>>, offset: nat, total: int, pdPayload: int, sduOffer: int)
    requires Fits(frags) && |frags| > 1 && |frags[0]| > 0 && |frags[1]| > 0
    requires offset + TotalSize(frags) == total < 0x1_0000_0000
    requires t.currentOffset == offset
    requires offset != 0 ==> t.sinkOpen
    ensures var f := frags[0];
      var next := Transfer(offset + |f|, total, true, (if offset == 0 then [] else t.file) + f);
      var rest := Deliver(next, frags[1..], offset + |f|, total, pdPayload, sduOffer);
      Deliver(t, frags, offset, total, pdPayload, sduOffer)
        == (rest.0, [FtStat(FTSTAT_OK, ToU16(OfferedSize(pdPayload, sduOffer)))] + rest.1)
  {
    var f := frags[0];
    assert |f| < 0x1_0000;
    assert offset + |f| < total by {
      assert frags[1..][0] == frags[1];
      assert TotalSize(frags) == |f| + TotalSize(frags[1..]);
    }
    IdealStep(t, f, offset, total, pdPayload, sduOffer);
    var step := ReceiveFragment(t.(totalLength := total), Fragment(Ok, |f|, offset, f),
                                IdealIo(|f|, sduOffer), pdPayload);
    var frag := Fragment(Ok, |f|, offset, f);
    assert Deliver(t, frags, offset, total, pdPayload, sduOffer)
        == DeliverFirst(t, frags, offset, total, pdPayload, sduOffer)
        == DeliverFragment(t, frag, frags[1..], total, pdPayload, sduOffer);
    var rest := Deliver(step.transfer, frags[1..], offset + |f|, total, pdPayload, sduOffer);
    assert DeliverFragment(t, frag, frags[1..], total, pdPayload, sduOffer) == (rest.0, step.replies + rest.1);
  }

  /** Delivering the only remaining fragment completes the transfer. */
  lemma DeliverLast(t: Transfer, frags: seq<seq<byte>>, offset: nat, total: int, pdPayload: int, sduOffer: int)
    requires Fits(frags) && |frags| == 1 && |frags[0]| > 0
    requires offset + TotalSize(frags) == total < 0x1_0000_0000
    requires t.currentOffset == offset
    requires offset != 0 ==> t.sinkOpen
    ensures var r := Deliver(t, frags, offset, total, pdPayload, sduOffer);
      && Idle(r.0)
      && r.0.file == (if offset == 0 then [] else t.file) + frags[0]
      && r.1 == [FtStat(FTSTAT_PROCESSED, 0)]
  {
    assert frags[1..] == [] && TotalSize(frags) == |frags[0]| + TotalSize([]);
    var f := frags[0];
    assert |f| < 0x1_0000;
    IdealStep(t, f, offset, total, pdPayload, sduOffer);
    var step := ReceiveFragment(t.(totalLength := total), Fragment(Ok, |f|, offset, f),
                                IdealIo(|f|, sduOffer), pdPayload);
    var frag := Fragment(Ok, |f|, offset, f);
    assert Deliver(t, frags, offset, total, pdPayload, sduOffer)
        == DeliverFirst(t, frags, offset, total, pdPayload, sduOffer)
        == DeliverFragment(t, frag, frags[1..], total, pdPayload, sduOffer);
    assert Deliver(step.transfer, frags[1..], offset + |f|, total, pdPayload, sduOffer) == (step.transfer, []);
    assert DeliverFragment(t, frag, frags[1..], total, pdPayload, sduOffer) == (step.transfer, step.replies + []);
  }

  /** The inductive step: from any point of a transfer the remaining
      fragments are appended in order, answered by OK for all but the last
      and PROCESSED for the last, after which the transfer is idle. */
  lemma {:induction false} DeliverRest(t: Transfer, frags: seq<seq<byte>>, offset: nat, total: int,
                                       pdPayload: int, sduOffer: int)
    requires Fits(frags) && NonEmpty(frags) && frags != []
    requires offset + TotalSize(frags) == total < 0x1_0000_0000
    requires t.currentOffset == offset
    requires offset != 0 ==> t.sinkOpen
    decreases |frags|
    ensures var r := Deliver(t, frags, offset, total, pdPayload, sduOffer);
      && Idle(r.0)
      && r.0.file == (if offset == 0 then [] else t.file) + Concat(frags)
      && r.1 == OkReplies(|frags| - 1, ToU16(OfferedSize(pdPayload, sduOffer))) + [FtStat(FTSTAT_PROCESSED, 0)]
  {
    var f := frags[0];
    var base := if offset == 0 then [] else t.file;
    var offer := ToU16(OfferedSize(pdPayload, sduOffer));
    if |frags| == 1 {
      DeliverLast(t, frags, offset, total, pdPayload, sduOffer);
      assert Concat(frags) == f + Concat([]);
    } else {
      var next := Transfer(offset + |f|, total, true, base + f);
      DeliverHead(t, frags, offset, total, pdPayload, sduOffer);
      assert TotalSize(frags) == |f| + TotalSize(frags[1..]);
      DeliverRest(next, frags[1..], offset + |f|, total, pdPayload, sduOffer);
      assert Concat(frags) == f + Concat(frags[1..]);
      AppendAssoc(base, f, Concat(frags[1..]));
      var rest := Deliver(next, frags[1..], offset + |f|, total, pdPayload, sduOffer);
      OneMoreOk([FtStat(FTSTAT_OK, offer)], rest.1, |frags| - 1, offer);
    }
  }

  /** A file sent in non-empty fragments from an idle context is stored
      whole, every fragment but the last is answered by OK with the offered
      size, exactly one PROCESSED ends the exchange, and the context is idle
      again. */
  lemma WholeFileDelivered(t: Transfer, frags: seq<seq<byte>>, pdPayload: int, sduOffer: int)
    requires Fits(frags) && NonEmpty(frags) && frags != []
    requires TotalSize(frags) < 0x1_0000_0000
    requires t.currentOffset == 0
    ensures var r := Deliver(t, frags, 0, TotalSize(frags), pdPayload, sduOffer);
      && |r.1| == |frags|
      && Idle(r.0)
      && r.0.file == Concat(frags)
      && r.1[|r.1| - 1] == FtStat(FTSTAT_PROCESSED, 0)
      && forall i :: 0 <= i < |r.1| - 1 ==> r.1[i] == FtStat(FTSTAT_OK, ToU16(OfferedSize(pdPayload, sduOffer)))
  {
    DeliverRest(t, frags, 0, TotalSize(frags), pdPayload, sduOffer);
  }

  // ---------------------------------------------------------------------
  // The ACU side

  /** A FINISHING verdict is handled exactly like OK: the next fragment is
      still sent while data remains. */
  lemma FinishingActsAsOk(t: Transfer, io: FtStatIo)
    requires io.validation == FileXferFinishing
    ensures OnFtStat(t, io) == OnFtStat(t, io.(validation := Ok))
  {
  }

  /** Under an OK verdict a finished transfer sends nothing and ends, and an
      unfinished one sends its next fragment, ending only if that send
      reached the total length. */
  lemma AcuAdvancesOrEnds(t: Transfer, io: FtStatIo)
    requires io.validation == Ok && t.totalLength > 0
    ensures var r := OnFtStat(t, io);
      && (t.currentOffset >= t.totalLength ==> !r.chunkSent && r.status == Ok)
      && (t.currentOffset == t.totalLength ==> Idle(r.transfer))
      && (t.currentOffset < t.totalLength ==>
            && r.chunkSent && r.status == io.sendStatus
            && (Idle(r.transfer) <==> io.offsetAfterSend == t.totalLength))
  {
  }
}
